=== FILE: README.md ===
# Kohana_Validate in Dafny

A model of Kohana's array validation class, `Kohana_Validate`. Its two parts
are below.

**The validation object.** This is the array under validation together with
four registries:
- field labels;
- filters;
- rules;
- callbacks.

It also covers the fluent calls that fill the registries: `factory`, `label`,
`filter`, `rule`, `rule_set`, `callback` and `as_array`.

**`check()`** runs one validation pass, in this order:
1. It resets the array to the expected (labelled) fields.
2. It returns early when nothing was submitted.
3. It merges the wildcard (`TRUE`) registrations into every expected field with
   PHP's `+=`, then removes the wildcard.
4. It chains each field's filters over its non-blank value.
5. It runs each field's rules until the first one returns `FALSE`, and records
   that rule's message.
6. It runs the callbacks, which thread the error array, skipping a field while
   it has an error.
7. It answers whether the error array ended up empty.

**The built-in validation methods** are modelled where they can be stated
without a regular-expression engine or other outside machinery:
- `not_empty`;
- the length trio;
- `credit_card`, with the Luhn checksum;
- `phone`;
- `range`;
- `color`;
- the ASCII modes of `alpha`, `alpha_numeric`, `alpha_dash` and `digit`;
- `numeric` and `decimal`, with the locale's decimal point as a parameter;
- `matches`.

PHP arrays are ordered association lists (`Assoc.Assoc`). Writing to a present
key keeps its position. Writing to a new key appends it. `+=` appends only the
keys that are missing.

Everything `check()` calls but cannot see is a parameter (`Engine.Env`,
`Dispatch.RuleEnv`):
- filter functions;
- global or static rule functions;
- the outcome of the validation methods left out below;
- callbacks;
- the card-type configuration;
- the locale's decimal point;
- the message table.

Modules, in dependency order:

| module | contents |
|---|---|
| `Wrappers` | `Option` |
| `Assoc` | PHP ordered arrays: `Put`, `Get`, `Union` (`+=`), `ListUnion` (`+=` on lists) |
| `Text` | characters, digit stripping, the default label, `strtr`-style placeholder substitution, `implode`, integer to string |
| `Values` | the dynamically typed `Value`, PHP `empty()`, loose `== NULL`, the `(string)` cast |
| `Luhn` | the Luhn checksum, as a definition and as `credit_card`'s two loops |
| `Predicates` | the built-in validation methods listed above |
| `Messages` | the template table and error-text construction |
| `Registry` | the validation object and the registration calls |
| `Dispatch` | rule-name resolution (methods before functions, case-insensitive) and rule evaluation |
| `Engine` | `check()` and its passes |
| `Scenarios` | a sign-up form run end to end |

## Model

All source paths are in `classes/kohana/validate.php`.

| member | source | states |
|---|---|---|
| Messages.Template | classes/kohana/validate.php:779-785 | A rule with its own entry in the message table uses it. Otherwise the `default` entry is used. |
| Messages.NotEmptyMessage | classes/kohana/validate.php:12-21 | With the shipped table, a `not_empty` failure reads "<label> must not be empty", whatever the parameters. |
| Messages.MinLengthMessage | classes/kohana/validate.php:786-791 | A `min_length` failure with bound n reads "<label> must be at least n characters long". `:params` becomes the bound written in decimal. |
| Messages.DefaultMessage | classes/kohana/validate.php:779-791 | A rule with no template of its own (e.g. `email`) gets "<label> value is invalid". |
| Text.DefaultLabel | classes/kohana/validate.php:495-499 | The default label is empty iff the field name is. It holds only letters and single spaces, never two non-letters in a row. It keeps every letter of the name, in order. |
| Text.DefaultLabelSplit | classes/kohana/validate.php:495-499 | Where the spaces go: a run of non-letters between a piece ending in a letter and a piece starting with one becomes exactly one space between their labels. |
| Text.DefaultLabelConcat | classes/kohana/validate.php:495-499 | A name piece ending in a letter is labelled on its own, whatever follows it. |
| Text.DefaultLabelLetters | classes/kohana/validate.php:495-499 | A name made of letters only is its own label. |
| Text.DefaultLabelWords | classes/kohana/validate.php:495-499 | Two words joined by non-letters (`first_name`, `a-b`) are labelled as the two words with one space between them. |
| Text.Substitute | classes/kohana/validate.php:791 | Placeholder substitution leaves text without a colon unchanged. |
| Text.SubstituteLiteral | classes/kohana/validate.php:791 | Colon-free text before a placeholder is copied unchanged. Substitution continues after it. |
| Text.StripNonDigits | classes/kohana/validate.php:187 | Removing non-digits leaves only digits. A digit string is left unchanged. |
| Text.StripNonDigitsKeepsDigits | classes/kohana/validate.php:187 | Removing non-digits keeps every digit as often as it occurs, and nothing else. |
| Text.StripNonDigitsConcat | classes/kohana/validate.php:187 | Removing non-digits works piece by piece, so the digits keep their order. |
| Text.NatToStringRoundTrip | classes/kohana/validate.php:788 | The decimal text of a natural number reads back as the same number. |
| Text.IntToString | classes/kohana/validate.php:788 | An integer parameter's text starts with `-` iff it is negative. The rest is a non-empty run of digits with no leading zero (except for 0 itself), and it reads back as the absolute value. |
| Text.JoinPair | classes/kohana/validate.php:788 | `implode` puts exactly one separator between two parts. |
| Text.JoinAppend | classes/kohana/validate.php:788 | Each further part adds one separator and then the part, so the separator stands between every two neighbours. |
| Predicates.NotEmptyExactly | classes/kohana/validate.php:39-42 | `not_empty` rejects exactly null, `''`, 0, false and the empty array. `'0'` passes. Equivalently, it passes iff the value is not loosely `== NULL`. |
| Predicates.LengthTrio | classes/kohana/validate.php:63-90 | `exact_length` n holds iff `min_length` n and `max_length` n both hold. A non-integer bound never matches exactly (`===`). |
| Dispatch.LengthRules | classes/kohana/validate.php:63-90 | The rules `min_length`, `max_length` and `exact_length` pass on a string iff its length is ≥, ≤ or = the integer bound. |
| Predicates.CreditCardDigits | classes/kohana/validate.php:186-188 | A number with no digits fails. Stripping the number again changes nothing. |
| Predicates.CreditCardAnyType | classes/kohana/validate.php:195-205 | A non-empty list of types passes iff one of its types passes. |
| Predicates.CreditCardIgnoresTypeCase | classes/kohana/validate.php:207-213 | The type name is matched whatever its case: a type name and its lower-cased form give the same verdict. |
| Predicates.CreditCardLuhnOff | classes/kohana/validate.php:215-228 | With the type's Luhn flag off, the checksum plays no part. Two digit strings of the same length that agree on the prefix test get the same verdict. |
| Predicates.CreditCardCatchesTypo | classes/kohana/validate.php:230-249 | With the type's Luhn flag on, a passing number fails once any one of its digits is changed. |
| Predicates.CreditCardTestNumberPasses | classes/kohana/validate.php:184-249 | `4111111111111111` is a valid `VISA` number. |
| Predicates.CreditCardAlteredNumberFails | classes/kohana/validate.php:184-249 | `4111111111111112` is not a valid `visa` number. |
| Luhn.ChecksumLoops | classes/kohana/validate.php:231-245 | The two loops compute the Luhn checksum. The first adds every second digit from the right. The second adds the doubled digits in between, less 9 when the double is 10 or more. |
| Luhn.PlainPlusTwice | classes/kohana/validate.php:233-245 | The two loops' partial sums add up to the checksum. |
| Luhn.Examples | classes/kohana/validate.php:231-249 | The checksum of `4111111111111111` is 30. The checksum of `4111111111111112` is 31. |
| Luhn.SingleDigitErrorDetected | classes/kohana/validate.php:248-249 | Changing any one digit changes the checksum modulo 10, so a single mistyped digit is always caught. |
| Predicates.PhoneIgnoresFormatting | classes/kohana/validate.php:258-270 | Separators between digits do not change the verdict. On a digit string, `phone` is membership of its length in the list. |
| Predicates.CharacterClassesNest | classes/kohana/validate.php:290-361 | ASCII alpha and digit strings are alpha-numeric. Alpha-numeric strings are alpha-dash. No string is both alpha and digit. The empty string is in no class. |
| Predicates.NumericCovers | classes/kohana/validate.php:372-409 | Every digit string is `numeric`. So is every `decimal` without a trailing newline. |
| Predicates.DecimalTrailingNewline | classes/kohana/validate.php:403-409 | `decimal` accepts "1.50\n", because its pattern lacks the `D` modifier. `numeric` rejects it. |
| Predicates.ColorShape | classes/kohana/validate.php:419-422 | An accepted colour has 3, 4, 6 or 7 characters. It starts with `#` iff it has 4 or 7. |
| Predicates.ColorHash | classes/kohana/validate.php:419-422 | One leading `#` is optional. Two are rejected. |
| Predicates.MatchesAbsentSibling | classes/kohana/validate.php:858-861 | Against a missing sibling field, `matches` holds only for a null value. |
| Dispatch.Resolve | classes/kohana/validate.php:743 | A rule name resolves to the validation method with the same lower-cased name. It resolves to nothing iff no method has that name. |
| Dispatch.ResolveIgnoresCase | classes/kohana/validate.php:743 | Resolution is blind to case. |
| Dispatch.ResolveName | classes/kohana/validate.php:743-757 | Every validation method is found under its declared name. |
| Dispatch.EvalRuleIgnoresCase | classes/kohana/validate.php:743-757 | A rule naming a validation method gives the same result in any letter case, and that result is always a boolean. |
| Dispatch.RangeRule | classes/kohana/validate.php:388-391 | `range` (in any case) passes on an integer with integer bounds iff lo ≤ n ≤ hi, both bounds included. |
| Dispatch.MethodsShadowFunctions | classes/kohana/validate.php:743-766 | For a name that resolves to a method, global functions play no part. For any other name, the rule fails iff the function returns exactly `FALSE`. |
| Dispatch.DateIsTheMethod | classes/kohana/validate.php:278-281 | `date` and `DATE` run the class's own `date` check, never PHP's `date()`. |
| Registry.Factory | classes/kohana/validate.php:29-32 | A fresh object holds the given array and has nothing registered. It is well formed iff the array has unique keys. |
| Registry.Label | classes/kohana/validate.php:473-479 | `label` sets the field's label, even when it already has one. Other labels are unchanged. An existing label keeps its position. A new field's label is appended at the end. |
| Registry.LabelKeepsWellFormed | classes/kohana/validate.php:473-479 | `label` keeps the object well formed. |
| Registry.EnsureLabel | classes/kohana/validate.php:495-499 | Registering on an unlabelled field appends its default label. The wildcard and already labelled fields leave the labels as they are. |
| Registry.AddSpec | classes/kohana/validate.php:502 | Re-registering an id keeps its position and replaces its parameters. A new id is appended. Other ids and other targets are unchanged. An existing target keeps its place among the targets. A new target is appended at the end, holding only this id. |
| Registry.Filter | classes/kohana/validate.php:493-505 | `filter` changes only the labels and the filters. An unlabelled field gets its default label appended; otherwise the labels stay as they are. The filter ends up registered on the target with its parameters. A re-registered filter keeps its position; a new one is appended. Other filters and other targets are unchanged. An existing target keeps its place among the targets; a new target is appended at the end with this one filter. |
| Registry.FilterKeepsWellFormed | classes/kohana/validate.php:493-505 | `filter` keeps the object well formed, its target labelled. |
| Registry.Rule | classes/kohana/validate.php:521-533 | `rule` changes only the labels and the rules. An unlabelled field gets its default label appended; otherwise the labels stay as they are. The rule ends up registered on the target with its parameters. A re-registered rule keeps its position; a new one is appended. Other rules and other targets are unchanged. An existing target keeps its place among the targets; a new target is appended at the end with this one rule. |
| Registry.RuleKeepsWellFormed | classes/kohana/validate.php:521-533 | `rule` keeps the object well formed. |
| Registry.RuleSet | classes/kohana/validate.php:542-550 | `rule_set` with no rules changes nothing. Otherwise it labels the field and folds `AddSpec` over the rules in order. |
| Registry.RuleSetRegistersEach | classes/kohana/validate.php:542-550 | After `rule_set`, each of its rules is registered with its parameters. The field's other rules and every other target are unchanged. |
| Registry.RuleSetKeepsWellFormed | classes/kohana/validate.php:542-550 | `rule_set` keeps the object well formed. |
| Registry.AddCallback | classes/kohana/validate.php:566-587 | After `callback`, the callable is registered on the target. It is appended when new. A second registration changes nothing. Other targets are unchanged. An existing target keeps its place among the targets; a new target is appended at the end with this one callable. |
| Registry.AddCallbackKeepsWellFormed | classes/kohana/validate.php:566-587 | `callback` keeps every callback list free of repeats and its target labelled. |
| Registry.CallbacksStayWellFormed | classes/kohana/validate.php:575-584 | Appending only absent callables keeps callback lists repeat-free. |
| Registry.SpecsStayWellFormed | classes/kohana/validate.php:502 | Adding a spec keeps a registry's arrays valid and its targets labelled. |
| Assoc.Put | classes/kohana/validate.php:476 | Assigning to a present key keeps the key order. Assigning to a new key appends it. Lookups see the new value, and every other key's value is unchanged. |
| Assoc.Union | classes/kohana/validate.php:645 | `+=` keeps the left array as a prefix. The result has the keys of both. A key present on the left keeps its left value. |
| Assoc.UnionAppendsMissing | classes/kohana/validate.php:645 | `$m += $w` is `m` followed by exactly the entries of `w` whose keys `m` lacks, in `w`'s order. |
| Assoc.ListUnionIsIndexUnion | classes/kohana/validate.php:669 | On callback lists, `+=` adds only the wildcard callbacks at positions past the field's own list. |
| Assoc.ListUnion | classes/kohana/validate.php:669 | The field's own callbacks come first. The wildcard's entries at positions the field already fills are dropped. |
| Engine.Reset | classes/kohana/validate.php:613-634 | The new array holds exactly the expected fields, in label order. Each holds its submitted value, or null. |
| Engine.MergeIntoEntries | classes/kohana/validate.php:636-670 | After the merge, each expected field's entry is its own entry `+=` the wildcard's. Every other target is untouched, the wildcard included. |
| Engine.MergeWildcard | classes/kohana/validate.php:636-670 | Without a wildcard entry, the registry is unchanged. With one, the existing targets keep their order, and a target is appended for each expected field that had none, in label order. |
| Engine.MergeIntoKeyOrder | classes/kohana/validate.php:636-670 | The merge keeps the existing targets in place and appends a target for each expected field that had none, in label order. |
| Engine.OwnEntriesWin | classes/kohana/validate.php:645-657 | After the merge, a field's own entries come first and keep their parameters. A wildcard id the field already has is ignored. |
| Engine.FieldsGet | classes/kohana/validate.php:686 | Removing the wildcard leaves every field's entry as it was. |
| Engine.Fields | classes/kohana/validate.php:686 | Removing the wildcard keeps exactly the field targets, in their order. |
| Engine.PreparedKeyOrder | classes/kohana/validate.php:636-686 | The order the passes walk: the registry's field targets in their order, then the expected fields that had no entry, in label order. Without a wildcard it is the registry's field order alone. |
| Engine.PreparedEntries | classes/kohana/validate.php:636-686 | The registry a pass walks holds, for each expected field, exactly its own entries followed by the wildcard's. |
| Engine.ChainAppend | classes/kohana/validate.php:698-722 | Running two filter lists one after the other is the same as running their concatenation. |
| Engine.FiltersPass | classes/kohana/validate.php:690-726 | The filter pass keeps the array's fields. |
| Engine.FiltersPassValues | classes/kohana/validate.php:690-726 | After the filter pass, each field holds its filter chain applied to its value. A field is untouched when it has no filters or its value is null or `''`. |
| Engine.FirstFailureIsFirst | classes/kohana/validate.php:735-795 | No failure is found iff every rule passes or is skipped. Otherwise the failure found is the first rule that fails. |
| Engine.FirstFailureAppend | classes/kohana/validate.php:794 | Rules after a failing rule never matter. |
| Engine.NotEmptySpelling | classes/kohana/validate.php:738 | On a blank value, `not_empty` runs and fails. `NOT_EMPTY` is skipped, because the skip test compares exactly while method lookup ignores case. |
| Engine.Record | classes/kohana/validate.php:791 | Recording an error sets that field's message and leaves the others. A new field is appended. |
| Engine.RulesPass | classes/kohana/validate.php:730-797 | The error keys are the incoming ones, followed by the newly failing fields in the order the rule registry lists them. |
| Engine.NewFailuresExactly | classes/kohana/validate.php:730-797 | The fields appended by the rule pass are exactly the fields whose rules fail and that came in without an error. |
| Engine.RulesPassErrors | classes/kohana/validate.php:730-797 | After the rule pass, each field holds its first failing rule's message when it has one. Otherwise it holds the error it came in with. |
| Engine.RunCallbacks | classes/kohana/validate.php:803-806 | A field's callbacks do nothing while the field has an error. |
| Engine.RunCallbacksStop | classes/kohana/validate.php:803-838 | The first callback that gives its field an error is the last of that field's callbacks to run. |
| Engine.CallbacksPass | classes/kohana/validate.php:801-840 | When every field with callbacks already has an error, the callback pass changes nothing. |
| Engine.Check | classes/kohana/validate.php:598-849 | `check()` touches only the array. The array ends up with exactly the expected fields. With nothing submitted, the result is `FALSE`, the errors are as passed in and every field is null. Otherwise the result is whether the errors are empty. |
| Engine.NothingSubmittedRunsNothing | classes/kohana/validate.php:679-683 | With nothing submitted, no filter, rule or callback plays a part. |
| Engine.IncomingErrorsCount | classes/kohana/validate.php:677 | Errors passed in count. Without callbacks, a non-empty incoming error array makes `check()` fail. |
| Engine.CheckFilteredValues | classes/kohana/validate.php:690-726 | After `check()`, each expected field holds its submitted value passed through its own filters, then the wildcard filters. This does not apply when the value is null or `''`. |
| Engine.CheckRuleErrors | classes/kohana/validate.php:730-797 | Without callbacks, each expected field's error after `check()` is the message of its first failing rule. The rules are its own, then the wildcard's, run on the filtered value. Otherwise the field keeps the error it came in with. |
| Scenarios.SignupForm | classes/kohana/validate.php:521-533 | Registering `not_empty` on `username` and `email` on `email` gives a well-formed object. |
| Scenarios.SignupFails | classes/kohana/validate.php:598-849 | Take `username` = `''` and `email` = `'bad'` with those rules. `check()` fails with "<username label> must not be empty" and "<email label> value is invalid". |

## Left out

- `regex`, `email`, `email_domain`, `url`, `ip` and `date` depend on PCRE, `filter_var`, DNS or `strtotime`. Their verdict is the `unmodelled` parameter of `Dispatch.RuleEnv`.
- The UTF-8 modes of `alpha`, `alpha_numeric`, `alpha_dash` and `digit` depend on Unicode category tables. They go through `unmodelled` too. For the same reason, the letter class the default label uses is a parameter, `isLetter`.
- Argument shapes the modelled methods do not handle as listed in `Dispatch.EvalBuiltin` go to `unmodelled`. Examples are an array as a string argument, a non-integer bound for `min_length` or `max_length`, and `range` on strings or floats. A non-integer bound for `exact_length` is modelled: the `===` comparison makes it fail.
- `ctype_alnum` and `ctype_digit` on integers go to `unmodelled`, because PHP reads small integers as character codes.
- The locale lookup (`localeconv`) is replaced by the `decimalPoint` parameter. A decimal point that is special inside a regular-expression character class is not modelled.
- `Kohana::config('credit_cards')` is a parameter. Each type's lengths are an integer list, not a string split with `preg_split`. Its prefix is a predicate, not a regular expression.
- The profiler calls are left out. They do not affect the result.
- Translation (`__()`) is the identity. Only the placeholders are substituted.
- Reflection is not modelled: `ReflectionFunction`, `ReflectionMethod`, `Class::method` parsing, and the exceptions an unknown name raises. A rule name that is not a validation method is looked up in `functionRule`. Filters and callbacks are looked up by name in `filterFn` and `callbackFn`.
- Callbacks are pure functions of the object, the field and the errors. A callback that changes the object itself is not modelled.
- The object's other methods are not modelled: `label`, `rule`, `check` and the rest of the class, the inherited `ArrayObject` methods (`count`, `append`, `unserialize`, …) and subclass methods. `method_exists` finds them too, so a rule with such a name runs that method. The model treats such a name as a function name. Only the class's 21 validation methods resolve to methods.
- PHP coerces the `TRUE` key to `1`, so a field literally named `"1"` collides with the wildcard. The model keeps the two apart.
- Floating-point values are not modelled. `Values.Value` has no float case, so float field values and float rule arguments (such as `range` bounds) are outside the model.
- `(array) $errors` on an incoming non-array is not modelled. The errors are always an array.
- The message table is the `messages` parameter. `Messages.DefaultMessages` is the shipped one.
- Engine.CallbacksPass: only the case where nothing runs is stated. A callback's effect on the errors is whatever `callbackFn` returns, so nothing more can be said about it.
- Engine.MergeWildcard: it states the key order and validity only. The per-field contents are stated by `Engine.MergeIntoEntries` and `Engine.PreparedEntries`.

## Notes

- The message table has no `email` entry. A failing `email` rule therefore reads "<label> value is invalid" (the `default` template), not "does not match the required format" (`Scenarios.SignupFails`).
- `decimal`'s pattern lacks the `D` modifier, so a single trailing newline is accepted. The model keeps this behaviour (`Predicates.DecimalTrailingNewline`).
- The callback wildcard merge goes by list index (`Assoc.ListUnionIsIndexUnion`). A field with its own callbacks therefore gets only the wildcard callbacks past the length of its own list. The model keeps this behaviour.

=== FILE: assoc.dfy ===
/**
 * PHP ordered arrays, modelled as association lists: key/value pairs in
 * insertion order.  Writing an existing key keeps its position, writing a
 * new key appends it, and `+=` appends only those right-hand entries whose
 * keys are missing on the left.
 */
module Assoc {
  import opened Wrappers

  type Assoc<K, V> = seq<(K, V)>

  function Keys<K, V>(m: Assoc<K, V>): (ks: seq<K>)
    ensures |ks| == |m|
    ensures forall i :: 0 <= i < |m| ==> ks[i] == m[i].0
  {
    seq(|m|, i requires 0 <= i < |m| => m[i].0)
  }

  /** Every key occurs at most once, as in a PHP array. */
  predicate Valid<K(==,!new), V>(m: Assoc<K, V>) {
    forall i, j :: 0 <= i < j < |m| ==> m[i].0 != m[j].0
  }

  /** `$m[$k]`: the value stored under `k`, if any (the first one when keys repeat). */
  function Get<K(==,!new), V>(m: Assoc<K, V>, k: K): (r: Option<V>)
    ensures r.Some? <==> k in Keys(m)
    ensures r.Some? ==> (k, r.value) in m
    ensures Valid(m) ==> forall i :: 0 <= i < |m| && m[i].0 == k ==> r == Some(m[i].1)
  {
    if m == [] then None
    else if m[0].0 == k then Some(m[0].1)
    else
      assert Keys(m) == [m[0].0] + Keys(m[1..]);
      Get(m[1..], k)
  }

  /** `$m[$k] = $v`: replace in place when `k` is present, append otherwise. */
  function Put<K(==,!new), V>(m: Assoc<K, V>, k: K, v: V): (r: Assoc<K, V>)
    ensures k in Keys(m) ==> Keys(r) == Keys(m)
    ensures k !in Keys(m) ==> r == m + [(k, v)] && Keys(r) == Keys(m) + [k]
    ensures forall k' :: k' in Keys(r) <==> k' in Keys(m) || k' == k
    ensures Valid(m) ==> Valid(r)
    ensures Valid(m) ==> Get(r, k) == Some(v)
    ensures Valid(m) ==> forall k' :: k' != k ==> Get(r, k') == Get(m, k')
  {
    if k in Keys(m) then
      var r := seq(|m|, i requires 0 <= i < |m| => if m[i].0 == k then (k, v) else m[i]);
      assert Keys(r) == Keys(m);
      r
    else
      var r := m + [(k, v)];
      assert Keys(r) == Keys(m) + [k];
      r
  }

  /** `$m += $w`: append, in order, the entries of `w` whose keys `m` lacks. */
  function Union<K(==,!new), V>(m: Assoc<K, V>, w: Assoc<K, V>): (r: Assoc<K, V>)
    ensures |m| <= |r| && r[..|m|] == m
    ensures forall k :: k in Keys(r) <==> k in Keys(m) || k in Keys(w)
    ensures forall k :: Get(r, k) == if k in Keys(m) then Get(m, k) else Get(w, k)
    ensures Valid(m) ==> Valid(r)
    decreases |w|
  {
    if w == [] then m
    else
      assert Keys(w) == [w[0].0] + Keys(w[1..]);
      if w[0].0 in Keys(m) then Union(m, w[1..])
      else
        var m' := m + [w[0]];
        assert Keys(m') == Keys(m) + [w[0].0];
        GetAppend(m, w[0]);
        var r := Union(m', w[1..]);
        assert r[..|m|] == r[..|m'|][..|m|];
        r
  }

  /** The entries of `w` whose keys are not among `ks`, in `w`'s order. */
  function Without<K(==,!new), V(!new)>(w: Assoc<K, V>, ks: seq<K>): (r: Assoc<K, V>)
    ensures forall e :: e in r <==> e in w && e.0 !in ks
    decreases |w|
  {
    if w == [] then []
    else if w[0].0 in ks then Without(w[1..], ks)
    else [w[0]] + Without(w[1..], ks)
  }

  /** Excluding a key that `w` does not have changes nothing. */
  lemma {:induction false} WithoutAbsentKey<K(!new), V(!new)>(w: Assoc<K, V>, ks: seq<K>, k: K)
    requires k !in Keys(w)
    ensures Without(w, ks + [k]) == Without(w, ks)
    decreases |w|
  {
    if w != [] {
      assert Keys(w) == [w[0].0] + Keys(w[1..]);
      WithoutAbsentKey(w[1..], ks, k);
    }
  }

  /**
   * `$m += $w` appends exactly the entries of `w` whose keys `m` lacks, in
   * `w`'s order, after all of `m`.
   */
  lemma {:induction false} UnionAppendsMissing<K(!new), V(!new)>(m: Assoc<K, V>, w: Assoc<K, V>)
    requires Valid(w)
    ensures Union(m, w) == m + Without(w, Keys(m))
    decreases |w|
  {
    if w != [] {
      var rest := w[1..];
      UnionStep(m, w);
      if w[0].0 in Keys(m) {
        UnionAppendsMissing(m, rest);
      } else {
        var m' := m + [w[0]];
        UnionAppendsMissing(m', rest);
        WithoutFresh(m, w);
      }
    }
  }

  /** One step of `+=`: the first entry of `w` is skipped or appended. */
  lemma UnionStep<K(!new), V(!new)>(m: Assoc<K, V>, w: Assoc<K, V>)
    requires w != []
    ensures w[0].0 in Keys(m) ==> Union(m, w) == Union(m, w[1..]) && Without(w, Keys(m)) == Without(w[1..], Keys(m))
    ensures w[0].0 !in Keys(m) ==> Union(m, w) == Union(m + [w[0]], w[1..])
  {
  }

  /** Appending the first entry of `w` to `m` leaves the rest of `w` to add after it. */
  lemma WithoutFresh<K(!new), V(!new)>(m: Assoc<K, V>, w: Assoc<K, V>)
    requires Valid(w) && w != [] && w[0].0 !in Keys(m)
    ensures m + [w[0]] + Without(w[1..], Keys(m + [w[0]])) == m + Without(w, Keys(m))
  {
    var tail := Without(w[1..], Keys(m));
    var ks := Keys(m + [w[0]]);
    assert ks == Keys(m) + [w[0].0];
    assert Without(w[1..], ks) == tail by {
      HeadKeyUnique(w);
      WithoutAbsentKey(w[1..], Keys(m), w[0].0);
    }
    assert Without(w, Keys(m)) == [w[0]] + tail;
    assert m + [w[0]] + tail == m + ([w[0]] + tail);
  }

  /** In an array without repeated keys, the first key does not occur again. */
  lemma HeadKeyUnique<K(!new), V>(w: Assoc<K, V>)
    requires Valid(w) && w != []
    ensures w[0].0 !in Keys(w[1..])
  {
    var rest := w[1..];
    forall i | 0 <= i < |rest| ensures Keys(rest)[i] != w[0].0 {
      assert rest[i] == w[i + 1];
    }
  }

  /** Looking up in `m + [e]` finds the entries of `m` first. */
  lemma {:induction false} GetAppend<K(!new), V>(m: Assoc<K, V>, e: (K, V))
    ensures forall k :: Get(m + [e], k) ==
                        (if k in Keys(m) then Get(m, k) else if k == e.0 then Some(e.1) else None)
  {
    if m != [] {
      GetAppend(m[1..], e);
      assert (m + [e])[1..] == m[1..] + [e];
      assert Keys(m) == [m[0].0] + Keys(m[1..]);
    }
  }

  /** A PHP list (`$a[] = ...`) as an ordered array keyed 0, 1, 2, ... */
  function Indexed<T>(s: seq<T>): (m: Assoc<int, T>)
    ensures Keys(m) == seq(|s|, i => i)
  {
    seq(|s|, i requires 0 <= i < |s| => (i, s[i]))
  }

  /**
   * `$own += $w` on two PHP lists: the entries of `w` at positions `own`
   * already occupies are dropped, so only the tail of `w` past `|own|` is
   * appended.
   */
  function ListUnion<T>(own: seq<T>, w: seq<T>): (r: seq<T>)
    ensures |r| == if |own| < |w| then |w| else |own|
    ensures r[..|own|] == own
    ensures forall i :: |own| <= i < |w| ==> r[i] == w[i]
  {
    if |own| < |w| then own + w[|own|..] else own
  }

  /** `ListUnion` is exactly PHP's `+=` on the lists read as index-keyed arrays. */
  lemma ListUnionIsIndexUnion<T>(own: seq<T>, w: seq<T>)
    ensures Union(Indexed(own), Indexed(w)) == Indexed(ListUnion(own, w))
  {
    UnionIndexedFrom(own, w, 0);
  }

  lemma {:induction false} UnionIndexedFrom<T>(a: seq<T>, b: seq<T>, j: nat)
    requires j <= |a| && j <= |b|
    ensures Union(Indexed(a), Indexed(b)[j..]) == Indexed(ListUnion(a, b))
    decreases |b| - j
  {
    var w := Indexed(b)[j..];
    if j == |b| {
      assert w == [];
    } else {
      assert w[0] == (j, b[j]);
      assert w[1..] == Indexed(b)[j + 1..];
      if j < |a| {
        assert Keys(Indexed(a))[j] == j;
        UnionIndexedFrom(a, b, j + 1);
      } else {
        assert Keys(Indexed(a)) == seq(|a|, i => i);
        assert j !in Keys(Indexed(a));
        var a' := a + [b[j]];
        assert Indexed(a) + [w[0]] == Indexed(a');
        UnionIndexedFrom(a', b, j + 1);
        assert ListUnion(a', b) == ListUnion(a, b);
      }
    }
  }
}

=== FILE: dispatch.dfy ===
/**
 * How the engine runs one rule: a name that is one of the class's
 * validation methods (PHP method names ignore case) runs that method; any
 * other name is run as a global or static function, whose result is kept
 * as it is.  The object's other methods (the registration calls, `check`,
 * the inherited `ArrayObject` methods), which `method_exists` also finds,
 * are not modelled: their names are treated as function names.  A rule
 * fails exactly when its result is identical to `FALSE`.
 */
module Dispatch {
  import opened Wrappers
  import opened Assoc
  import opened Text
  import opened Values
  import P = Predicates

  /** The validation methods of the class. */
  datatype Builtin =
    | NotEmpty | Regex | MinLength | MaxLength | ExactLength | Email | EmailDomain
    | Url | Ip | CreditCard | Phone | Date | Alpha | AlphaNumeric | AlphaDash
    | Digit | Numeric | Range | Decimal | Color | Matches

  /** The declared (lower-case) name of each validation method. */
  function Name(b: Builtin): string {
    match b
    case NotEmpty => "not_empty"
    case Regex => "regex"
    case MinLength => "min_length"
    case MaxLength => "max_length"
    case ExactLength => "exact_length"
    case Email => "email"
    case EmailDomain => "email_domain"
    case Url => "url"
    case Ip => "ip"
    case CreditCard => "credit_card"
    case Phone => "phone"
    case Date => "date"
    case Alpha => "alpha"
    case AlphaNumeric => "alpha_numeric"
    case AlphaDash => "alpha_dash"
    case Digit => "digit"
    case Numeric => "numeric"
    case Range => "range"
    case Decimal => "decimal"
    case Color => "color"
    case Matches => "matches"
  }

  /** `method_exists($this, $rule)`: the validation method `id` names, ignoring case. */
  function Resolve(id: string): (r: Option<Builtin>)
    ensures r.Some? ==> Name(r.value) == Lower(id)
    ensures r.None? ==> forall b: Builtin :: Name(b) != Lower(id)
  {
    match Lower(id)
    case "not_empty" => Some(NotEmpty)
    case "regex" => Some(Regex)
    case "min_length" => Some(MinLength)
    case "max_length" => Some(MaxLength)
    case "exact_length" => Some(ExactLength)
    case "email" => Some(Email)
    case "email_domain" => Some(EmailDomain)
    case "url" => Some(Url)
    case "ip" => Some(Ip)
    case "credit_card" => Some(CreditCard)
    case "phone" => Some(Phone)
    case "date" => Some(Date)
    case "alpha" => Some(Alpha)
    case "alpha_numeric" => Some(AlphaNumeric)
    case "alpha_dash" => Some(AlphaDash)
    case "digit" => Some(Digit)
    case "numeric" => Some(Numeric)
    case "range" => Some(Range)
    case "decimal" => Some(Decimal)
    case "color" => Some(Color)
    case "matches" => Some(Matches)
    case _ => None
  }

  /** Resolution ignores case: `NOT_EMPTY`, `Not_Empty` and `not_empty` name the same method. */
  lemma ResolveIgnoresCase(id: string)
    ensures Resolve(id) == Resolve(Lower(id))
  {
    LowerIdempotent(id);
  }

  /** Every validation method is found under its own name. */
  lemma ResolveName(b: Builtin)
    ensures Resolve(Name(b)) == Some(b)
  {
    NameIsLower(b);
  }

  lemma NameIsLower(b: Builtin)
    ensures Lower(Name(b)) == Name(b)
  {
  }

  /**
   * What running a rule needs from outside the class: global and static
   * functions (their result, given the value and the extra arguments), the
   * outcome of the validation methods whose behaviour lies outside this
   * model (regular expressions, e-mail and URL syntax, DNS, date parsing,
   * UTF-8 modes, argument shapes not listed in `EvalBuiltin`), the
   * configured card types, and the locale's decimal point.
   */
  datatype RuleEnv = RuleEnv(
    functionRule: (string, Value, Params) -> Value,
    unmodelled: (Builtin, Value, Params) -> bool,
    cards: P.CardTable,
    decimalPoint: char)

  /** Every element is an integer. */
  predicate AllInts(xs: seq<Value>) {
    forall i :: 0 <= i < |xs| ==> xs[i].Int?
  }

  function Ints(xs: seq<Value>): (ns: seq<int>)
    requires AllInts(xs)
    ensures |ns| == |xs| && forall i :: 0 <= i < |xs| ==> xs[i] == Int(ns[i])
  {
    seq(|xs|, i requires 0 <= i < |xs| => xs[i].i)
  }

  /**
   * One validation method on the field's value `value` and the extra
   * arguments `ps`; `data` is the array being validated (read by `matches`).
   */
  function EvalBuiltin(env: RuleEnv, b: Builtin, value: Value, ps: Params, data: Assoc<string, Value>): bool {
    var other := env.unmodelled(b, value, ps);
    match b
    case NotEmpty => P.NotEmpty(value)
    case MinLength =>
      (match (AsText(value), Param(ps, 0))
       case (Some(s), Int(n)) => P.MinLength(s, n)
       case _ => other)
    case MaxLength =>
      (match (AsText(value), Param(ps, 0))
       case (Some(s), Int(n)) => P.MaxLength(s, n)
       case _ => other)
    case ExactLength =>
      (match AsText(value)
       case Some(s) => P.ExactLength(s, Param(ps, 0))
       case None => other)
    case CreditCard =>
      (match AsText(value)
       case Some(s) => P.CreditCard(env.cards, s, Param(ps, 0))
       case None => other)
    case Phone =>
      (match (AsText(value), Param(ps, 0))
       case (Some(s), List(ls)) => if AllInts(ls) then P.Phone(s, Ints(ls)) else other
       case (Some(s), _) => P.Phone(s, P.DefaultPhoneLengths)
       case (None, _) => other)
    case Alpha =>
      if Param(ps, 0) == Bool(true) then other else P.AsciiAlpha(ToStr(value))
    case AlphaNumeric =>
      if Param(ps, 0) == Bool(true) then other
      else (match value
            case Str(s) => P.AsciiAlphaNumeric(s)
            case Int(_) => other
            case _ => false)
    case AlphaDash =>
      if Param(ps, 0) == Bool(true) then other
      else (match AsText(value)
            case Some(s) => P.AsciiAlphaDash(s)
            case None => other)
    case Digit =>
      if Param(ps, 0) == Bool(true) then other
      else (match value
            case Str(s) => P.AsciiDigit(s)
            case Int(_) => other
            case _ => false)
    case Numeric => P.Numeric(ToStr(value), env.decimalPoint)
    case Range =>
      (match (value, Param(ps, 0), Param(ps, 1))
       case (Int(n), Int(lo), Int(hi)) => P.Range(n, lo, hi)
       case _ => other)
    case Decimal =>
      (match AsText(value)
       case Some(s) =>
         if |ps| == 0 then P.Decimal(s, env.decimalPoint, 2)
         else if ps[0].Int? && ps[0].i >= 0 then P.Decimal(s, env.decimalPoint, ps[0].i)
         else other
       case None => other)
    case Color =>
      (match AsText(value)
       case Some(s) => P.Color(s)
       case None => other)
    case Matches =>
      (match Param(ps, 0)
       case Str(field) => P.Matches(value, data, field)
       case _ => other)
    case Regex => other
    case Email => other
    case EmailDomain => other
    case Url => other
    case Ip => other
    case Date => other
  }

  /** The result of rule `id`: a validation method's verdict, or a function's result as returned. */
  function EvalRule(env: RuleEnv, id: string, value: Value, ps: Params, data: Assoc<string, Value>): (r: Value)
    ensures Resolve(id).Some? ==> r == Bool(EvalBuiltin(env, Resolve(id).value, value, ps, data))
    ensures Resolve(id).None? ==> r == env.functionRule(id, value, ps)
  {
    match Resolve(id)
    case Some(b) => Bool(EvalBuiltin(env, b, value, ps, data))
    case None => env.functionRule(id, value, ps)
  }

  /** `$passed === FALSE`. */
  predicate Fails(env: RuleEnv, id: string, value: Value, ps: Params, data: Assoc<string, Value>) {
    EvalRule(env, id, value, ps, data) == Bool(false)
  }

  /**
   * A validation method hides any function of the same name, in any case:
   * swapping the global functions changes nothing about a rule that
   * resolves to a method, and for any other name the function's result is
   * all that counts.
   */
  lemma MethodsShadowFunctions(env: RuleEnv, g: (string, Value, Params) -> Value, id: string, value: Value, ps: Params, data: Assoc<string, Value>)
    ensures Resolve(id).Some? ==> EvalRule(env, id, value, ps, data) == EvalRule(env.(functionRule := g), id, value, ps, data)
    ensures Resolve(id).None? ==> (Fails(env, id, value, ps, data) <==> env.functionRule(id, value, ps) == Bool(false))
  {
  }

  /** `date` and `DATE` both run the class's own `date` check, never PHP's global `date()` function. */
  lemma DateIsTheMethod(env: RuleEnv, value: Value, ps: Params, data: Assoc<string, Value>)
    ensures Resolve("date") == Some(Date) && Resolve("DATE") == Some(Date)
    ensures EvalRule(env, "DATE", value, ps, data) == Bool(env.unmodelled(Date, value, ps))
  {
    ResolveName(Date);
    assert Lower("DATE") == "date";
  }

  /** A rule that names a validation method gives the same result whatever the case of its name. */
  lemma EvalRuleIgnoresCase(env: RuleEnv, id: string, value: Value, ps: Params, data: Assoc<string, Value>)
    requires Resolve(id).Some?
    ensures EvalRule(env, id, value, ps, data) == EvalRule(env, Lower(id), value, ps, data)
    ensures EvalRule(env, id, value, ps, data).Bool?
  {
    ResolveIgnoresCase(id);
  }

  /** `range` on an integer with integer bounds passes iff the value lies between them, both included. */
  lemma RangeRule(env: RuleEnv, n: int, lo: int, hi: int, data: Assoc<string, Value>)
    ensures !Fails(env, "range", Int(n), [Int(lo), Int(hi)], data) <==> lo <= n <= hi
    ensures !Fails(env, "RANGE", Int(n), [Int(lo), Int(hi)], data) <==> lo <= n <= hi
  {
    ResolveName(Range);
    assert Lower("RANGE") == "range";
  }

  /** A string-typed field's length rules compare its character count with the integer bound. */
  lemma LengthRules(env: RuleEnv, s: string, n: int, data: Assoc<string, Value>)
    ensures !Fails(env, "min_length", Str(s), [Int(n)], data) <==> |s| >= n
    ensures !Fails(env, "max_length", Str(s), [Int(n)], data) <==> |s| <= n
    ensures !Fails(env, "exact_length", Str(s), [Int(n)], data) <==> |s| == n
  {
    ResolveName(MinLength);
    ResolveName(MaxLength);
    ResolveName(ExactLength);
  }
}

=== FILE: engine.dfy ===
/**
 * `check()`: reset the array to the expected fields, merge the wildcard
 * registrations into every expected field, then run the filters, the
 * rules and the callbacks, in that order, collecting error messages.
 */
module Engine {
  import opened Wrappers
  import opened Assoc
  import opened Text
  import opened Values
  import opened Registry
  import opened Dispatch
  import opened Messages

  /** Error messages by field, in the order the fields first got one. */
  type Errors = Assoc<string, string>

  /**
   * The code `check()` calls but this model does not contain: filter
   * functions (value in, value out), what the rules need (see `RuleEnv`),
   * callbacks (which see the object and the errors so far and return the new
   * errors), and the message table in force.
   */
  datatype Env = Env(
    filterFn: (string, Value, Params) -> Value,
    rules: RuleEnv,
    callbackFn: (Callback, Validation, string, Errors) -> Errors,
    messages: Assoc<string, string>)

  // ---------------------------------------------------------------------
  // Preparing the run
  // ---------------------------------------------------------------------

  /** The new array: every expected field, in label order, with its submitted value or null. */
  function Reset(data: Assoc<string, Value>, expected: seq<string>): (d: Assoc<string, Value>)
    ensures Keys(d) == expected
    ensures forall i :: 0 <= i < |expected| ==> d[i].1 == Lookup(data, expected[i])
  {
    seq(|expected|, i requires 0 <= i < |expected| => (expected[i], Lookup(data, expected[i])))
  }

  /** `isset($this[$field])` held for some expected field. */
  predicate Submitted(data: Assoc<string, Value>, expected: seq<string>) {
    exists i :: 0 <= i < |expected| && Lookup(data, expected[i]) != Null
  }

  /**
   * The wildcard merge: when `reg` has a wildcard entry, each expected
   * field's entry is combined with it (see `MergeInto`).
   */
  function MergeWildcard<V>(reg: Assoc<Key, V>, expected: seq<string>, empty: V, plus: (V, V) -> V): (r: Assoc<Key, V>)
    ensures Get(reg, Any).None? ==> r == reg
    ensures |reg| <= |r| && Keys(r)[..|reg|] == Keys(reg)
    ensures Get(reg, Any).Some? && Distinct(expected) ==> Keys(r) == Keys(reg) + FreshFields(expected, Keys(reg))
    ensures Valid(reg) ==> Valid(r)
  {
    match Get(reg, Any)
    case None => reg
    case Some(w) =>
      if Distinct(expected) then MergeIntoKeyOrder(reg, expected, w, empty, plus); MergeInto(reg, expected, w, empty, plus)
      else MergeInto(reg, expected, w, empty, plus)
  }

  /**
   * `$reg[$field] += $w` for each expected field in turn: the field's entry
   * (or `empty` when it has none) becomes `plus(own, w)`; fields without an
   * entry gain one at the end.
   */
  function MergeInto<V>(reg: Assoc<Key, V>, expected: seq<string>, w: V, empty: V, plus: (V, V) -> V): (r: Assoc<Key, V>)
    ensures |reg| <= |r| && Keys(r)[..|reg|] == Keys(reg)
    ensures Valid(reg) ==> Valid(r)
    decreases |expected|
  {
    if expected == [] then reg
    else
      var f := Field(expected[0]);
      var reg' := Put(reg, f, plus(Get(reg, f).GetOr(empty), w));
      var r := MergeInto(reg', expected[1..], w, empty, plus);
      assert |reg| <= |reg'| && Keys(reg')[..|reg|] == Keys(reg);
      assert Keys(r)[..|reg|] == Keys(r)[..|reg'|][..|reg|];
      r
  }

  /** The expected fields with no entry among `present`, as targets, in label order. */
  function FreshFields(expected: seq<string>, present: seq<Key>): (r: seq<Key>)
    ensures forall k :: k in r <==> k.Field? && k.name in expected && k !in present
    decreases |expected|
  {
    if expected == [] then []
    else if Field(expected[0]) in present then FreshFields(expected[1..], present)
    else [Field(expected[0])] + FreshFields(expected[1..], present)
  }

  /** Marking a field that is not expected as present changes nothing. */
  lemma {:induction false} FreshFieldsAbsent(expected: seq<string>, present: seq<Key>, f: string)
    requires f !in expected
    ensures FreshFields(expected, present + [Field(f)]) == FreshFields(expected, present)
    decreases |expected|
  {
    if expected != [] {
      FreshFieldsAbsent(expected[1..], present, f);
    }
  }

  /**
   * The merge keeps the existing targets in place and appends a target for
   * each expected field that had none, in label order.
   */
  lemma {:induction false} MergeIntoKeyOrder<V>(reg: Assoc<Key, V>, expected: seq<string>, w: V, empty: V, plus: (V, V) -> V)
    requires Distinct(expected)
    ensures Keys(MergeInto(reg, expected, w, empty, plus)) == Keys(reg) + FreshFields(expected, Keys(reg))
    decreases |expected|
  {
    if expected != [] {
      var f := Field(expected[0]);
      var rest := expected[1..];
      var reg' := Put(reg, f, plus(Get(reg, f).GetOr(empty), w));
      assert MergeInto(reg, expected, w, empty, plus) == MergeInto(reg', rest, w, empty, plus);
      assert Distinct(rest) && expected[0] !in rest by {
        forall i | 0 <= i < |rest| ensures rest[i] != expected[0] {
          assert rest[i] == expected[i + 1];
        }
      }
      MergeIntoKeyOrder(reg', rest, w, empty, plus);
      PutKeyOrder(reg, expected, plus(Get(reg, f).GetOr(empty), w));
    }
  }

  /** One step of the merge: writing the first expected field moves it from the fresh list to the keys, or leaves both alone. */
  lemma PutKeyOrder<V>(reg: Assoc<Key, V>, expected: seq<string>, v: V)
    requires expected != [] && expected[0] !in expected[1..]
    ensures var reg' := Put(reg, Field(expected[0]), v);
            Keys(reg') + FreshFields(expected[1..], Keys(reg')) == Keys(reg) + FreshFields(expected, Keys(reg))
  {
    var f, rest := Field(expected[0]), expected[1..];
    var reg' := Put(reg, f, v);
    var ks := Keys(reg);
    if f in ks {
      assert Keys(reg') == ks;
      assert FreshFields(expected, ks) == FreshFields(rest, ks);
    } else {
      assert Keys(reg') == ks + [f] by {
        assert reg' == reg + [(f, v)];
      }
      assert FreshFields(rest, ks + [f]) == FreshFields(rest, ks) by {
        FreshFieldsAbsent(rest, ks, expected[0]);
      }
      assert FreshFields(expected, ks) == [f] + FreshFields(rest, ks);
      ConcatAssoc(ks, [f], FreshFields(rest, ks));
    }
  }

  /**
   * After the merge, each expected field holds its own entry followed by
   * the wildcard's, and every other target, the wildcard included, is
   * untouched.
   */
  lemma {:induction false} MergeIntoEntries<V>(reg: Assoc<Key, V>, expected: seq<string>, w: V, empty: V, plus: (V, V) -> V)
    requires Valid(reg) && Distinct(expected)
    ensures var r := MergeInto(reg, expected, w, empty, plus);
      && (forall k: Key :: !(k.Field? && k.name in expected) ==> Get(r, k) == Get(reg, k))
      && (forall f: string :: f in expected ==> Get(r, Field(f)) == Some(plus(Get(reg, Field(f)).GetOr(empty), w)))
    decreases |expected|
  {
    if expected != [] {
      var f := Field(expected[0]);
      var rest := expected[1..];
      var reg' := Put(reg, f, plus(Get(reg, f).GetOr(empty), w));
      var r := MergeInto(reg', rest, w, empty, plus);
      assert r == MergeInto(reg, expected, w, empty, plus);
      assert Distinct(rest);
      MergeIntoEntries(reg', rest, w, empty, plus);
      assert forall g :: g in expected <==> g == expected[0] || g in rest;
      assert expected[0] !in rest;
      forall k: Key | !(k.Field? && k.name in expected)
        ensures Get(r, k) == Get(reg, k)
      {
        assert Get(r, k) == Get(reg', k);
      }
      forall g: string | g in expected
        ensures Get(r, Field(g)) == Some(plus(Get(reg, Field(g)).GetOr(empty), w))
      {
        if g == expected[0] {
          assert Get(r, Field(g)) == Get(reg', Field(g));
        } else {
          assert Get(reg', Field(g)) == Get(reg, Field(g));
        }
      }
    }
  }

  /** `unset($reg[TRUE])`, leaving the per-field entries keyed by field name in their order. */
  function Fields<V>(reg: Assoc<Key, V>): (r: Assoc<string, V>)
    ensures forall f :: f in Keys(r) <==> Field(f) in Keys(reg)
    ensures Valid(reg) ==> Valid(r)
    ensures Keys(r) == FieldNames(Keys(reg))
  {
    if reg == [] then []
    else
      var rest := Fields(reg[1..]);
      assert Keys(reg) == [reg[0].0] + Keys(reg[1..]);
      if reg[0].0.Any? then rest
      else
        var r := [(reg[0].0.name, reg[0].1)] + rest;
        assert Keys(r) == [reg[0].0.name] + Keys(rest);
        r
  }

  /** The names of the field targets among `ks`, in their order; the wildcard is dropped. */
  function FieldNames(ks: seq<Key>): (r: seq<string>)
    ensures forall f :: f in r <==> Field(f) in ks
    decreases |ks|
  {
    if ks == [] then []
    else if ks[0].Any? then FieldNames(ks[1..])
    else [ks[0].name] + FieldNames(ks[1..])
  }

  /** Dropping the wildcard works piecewise. */
  lemma {:induction false} FieldNamesConcat(a: seq<Key>, b: seq<Key>)
    ensures FieldNames(a + b) == FieldNames(a) + FieldNames(b)
    decreases |a|
  {
    if a == [] {
      assert a + b == b;
    } else {
      assert (a + b)[0] == a[0] && (a + b)[1..] == a[1..] + b;
      FieldNamesConcat(a[1..], b);
      ConcatAssoc(if a[0].Any? then [] else [a[0].name], FieldNames(a[1..]), FieldNames(b));
    }
  }

  /** Looking up a field name after the wildcard is removed is looking up the field. */
  lemma {:induction false} FieldsGet<V>(reg: Assoc<Key, V>)
    ensures forall f :: Get(Fields(reg), f) == Get(reg, Field(f))
  {
    if reg != [] {
      var rest := Fields(reg[1..]);
      FieldsGet(reg[1..]);
      forall f
        ensures Get(Fields(reg), f) == Get(reg, Field(f))
      {
        if reg[0].0.Any? || reg[0].0.name != f {
          assert Get(reg, Field(f)) == Get(reg[1..], Field(f));
          if reg[0].0.Field? {
            var r := [(reg[0].0.name, reg[0].1)] + rest;
            assert r[1..] == rest;
            assert Get(r, f) == Get(rest, f);
          }
        }
      }
    }
  }

  /** `$a += $b` on two filter or rule arrays. */
  function SpecUnion(a: Specs, b: Specs): Specs {
    Union(a, b)
  }

  /**
   * With a wildcard entry, a field's own entries come first and keep their
   * parameters; a wildcard entry with the same identifier is ignored.
   */
  lemma OwnEntriesWin(reg: Assoc<Key, Specs>, f: string, id: string)
    requires Get(reg, Any).Some?
    ensures var entries, own, w := EntriesFor(reg, f, [], SpecUnion).value, Own(reg, Field(f)), Get(reg, Any).value;
      && |own| <= |entries| && entries[..|own|] == own
      && Get(entries, id) == if id in Keys(own) then Get(own, id) else Get(w, id)
  {
  }

  /** The registry a pass walks: wildcard merged into the expected fields, wildcard entry removed. */
  function Prepared<V>(reg: Assoc<Key, V>, expected: seq<string>, empty: V, plus: (V, V) -> V): Assoc<string, V> {
    Fields(MergeWildcard(reg, expected, empty, plus))
  }

  /**
   * The entries that apply to expected field `f`: its own, followed by the
   * wildcard's, under PHP's `+=`.
   */
  function EntriesFor<V>(reg: Assoc<Key, V>, f: string, empty: V, plus: (V, V) -> V): Option<V> {
    match Get(reg, Any)
    case None => Get(reg, Field(f))
    case Some(w) => Some(plus(Get(reg, Field(f)).GetOr(empty), w))
  }

  /** A prepared registry holds, for each expected field, exactly the entries that apply to it. */
  lemma PreparedEntries<V>(reg: Assoc<Key, V>, expected: seq<string>, empty: V, plus: (V, V) -> V, f: string)
    requires Valid(reg) && Distinct(expected) && f in expected
    ensures Get(Prepared(reg, expected, empty, plus), f) == EntriesFor(reg, f, empty, plus)
  {
    FieldsGet(MergeWildcard(reg, expected, empty, plus));
    if Get(reg, Any).Some? {
      MergeIntoEntries(reg, expected, Get(reg, Any).value, empty, plus);
    }
  }

  /**
   * The order the passes walk: the registry's fields in their order, then
   * the expected fields it had no entry for, in label order; the wildcard
   * itself is gone.
   */
  lemma PreparedKeyOrder<V>(reg: Assoc<Key, V>, expected: seq<string>, empty: V, plus: (V, V) -> V)
    requires Distinct(expected)
    ensures Get(reg, Any).None? ==> Keys(Prepared(reg, expected, empty, plus)) == FieldNames(Keys(reg))
    ensures Get(reg, Any).Some? ==>
              Keys(Prepared(reg, expected, empty, plus)) == FieldNames(Keys(reg)) + FieldNames(FreshFields(expected, Keys(reg)))
  {
    if Get(reg, Any).Some? {
      FieldNamesConcat(Keys(reg), FreshFields(expected, Keys(reg)));
    }
  }

  /** `$a += $b` on two callback lists. */
  function CallbackUnion(a: seq<Callback>, b: seq<Callback>): seq<Callback> {
    ListUnion(a, b)
  }

  // ---------------------------------------------------------------------
  // Filters
  // ---------------------------------------------------------------------

  /** A field's filters applied in order, each to the previous one's result. */
  function Chain(env: Env, entries: Specs, x: Value): Value
    decreases |entries|
  {
    if entries == [] then x else Chain(env, entries[1..], env.filterFn(entries[0].0, x, entries[0].1))
  }

  /** Running two filter lists one after the other is running their concatenation. */
  lemma {:induction false} ChainAppend(env: Env, a: Specs, b: Specs, x: Value)
    ensures Chain(env, a + b, x) == Chain(env, b, Chain(env, a, x))
    decreases |a|
  {
    if a != [] {
      assert (a + b)[1..] == a[1..] + b;
      ChainAppend(env, a[1..], b, env.filterFn(a[0].0, x, a[0].1));
    } else {
      assert a + b == b;
    }
  }

  /**
   * The filter pass: each field with filters whose value is neither null nor
   * `''` gets the result of its filter chain; the array keeps its fields.
   */
  function FiltersPass(env: Env, filters: Assoc<string, Specs>, data: Assoc<string, Value>): (r: Assoc<string, Value>)
    ensures Keys(r) == Keys(data)
    ensures Valid(data) ==> Valid(r)
    decreases |filters|
  {
    if filters == [] then data
    else
      var (f, entries) := filters[0];
      var x := Lookup(data, f);
      var data' := if Blank(x) then data else Put(data, f, Chain(env, entries, x));
      FiltersPass(env, filters[1..], data')
  }

  /** The value a field holds after the filter pass. */
  function Filtered(env: Env, filters: Assoc<string, Specs>, data: Assoc<string, Value>, f: string): Value {
    var x := Lookup(data, f);
    match Get(filters, f)
    case Some(entries) => if Blank(x) then x else Chain(env, entries, x)
    case None => x
  }

  /** Each field ends the filter pass with its own chain applied, or untouched when it has none or is blank. */
  lemma {:induction false} FiltersPassValues(env: Env, filters: Assoc<string, Specs>, data: Assoc<string, Value>)
    requires Valid(filters) && Valid(data)
    ensures forall f :: Lookup(FiltersPass(env, filters, data), f) == Filtered(env, filters, data, f)
    decreases |filters|
  {
    if filters != [] {
      var (f0, entries0) := filters[0];
      var x0 := Lookup(data, f0);
      var data' := if Blank(x0) then data else Put(data, f0, Chain(env, entries0, x0));
      var rest := filters[1..];
      var r := FiltersPass(env, rest, data');
      assert r == FiltersPass(env, filters, data);
      FiltersPassValues(env, rest, data');
      assert Keys(filters) == [f0] + Keys(rest);
      assert f0 !in Keys(rest);
      forall f
        ensures Lookup(r, f) == Filtered(env, filters, data, f)
      {
        if f == f0 {
          assert Get(filters, f0) == Some(entries0);
          assert Lookup(r, f) == Lookup(data', f);
        } else {
          assert Get(filters, f) == Get(rest, f);
          assert Lookup(data', f) == Lookup(data, f);
        }
      }
    }
  }

  // ---------------------------------------------------------------------
  // Rules
  // ---------------------------------------------------------------------

  /** Every rule but `not_empty` (spelled exactly so) is skipped on a null or `''` value. */
  predicate Skipped(id: string, value: Value) {
    id != "not_empty" && Blank(value)
  }

  /** Rule `e` does not stop the field: it is skipped or its result is not `FALSE`. */
  predicate Passes(env: Env, e: (string, Params), value: Value, data: Assoc<string, Value>) {
    Skipped(e.0, value) || !Fails(env.rules, e.0, value, e.1, data)
  }

  /** The first of a field's rules that fails, if any; the rules after it never run. */
  function FirstFailure(env: Env, entries: Specs, value: Value, data: Assoc<string, Value>): Option<(string, Params)>
    decreases |entries|
  {
    if entries == [] then None
    else if !Passes(env, entries[0], value, data) then Some(entries[0])
    else FirstFailure(env, entries[1..], value, data)
  }

  /**
   * `FirstFailure` finds nothing exactly when every rule passes, and
   * otherwise finds a failing rule all of whose predecessors pass.
   */
  lemma {:induction false} FirstFailureIsFirst(env: Env, entries: Specs, value: Value, data: Assoc<string, Value>)
    ensures var r := FirstFailure(env, entries, value, data);
      && (r.None? <==> forall i :: 0 <= i < |entries| ==> Passes(env, entries[i], value, data))
      && (r.Some? ==> exists i :: 0 <= i < |entries| && entries[i] == r.value && !Passes(env, entries[i], value, data)
                                 && forall j :: 0 <= j < i ==> Passes(env, entries[j], value, data))
    decreases |entries|
  {
    if entries != [] && Passes(env, entries[0], value, data) {
      var r := FirstFailure(env, entries[1..], value, data);
      FirstFailureIsFirst(env, entries[1..], value, data);
      assert forall i :: 1 <= i < |entries| ==> entries[i] == entries[1..][i - 1];
      if r.Some? {
        var i :| 0 <= i < |entries[1..]| && entries[1..][i] == r.value && !Passes(env, entries[1..][i], value, data)
                 && forall j :: 0 <= j < i ==> Passes(env, entries[1..][j], value, data);
        assert entries[i + 1] == r.value;
      }
    }
  }

  /** Rules appended after a failing rule change nothing; otherwise the appended rules decide. */
  lemma {:induction false} FirstFailureAppend(env: Env, a: Specs, b: Specs, value: Value, data: Assoc<string, Value>)
    ensures FirstFailure(env, a + b, value, data) ==
            if FirstFailure(env, a, value, data).Some? then FirstFailure(env, a, value, data) else FirstFailure(env, b, value, data)
    decreases |a|
  {
    if a != [] {
      assert (a + b)[0] == a[0];
      assert (a + b)[1..] == a[1..] + b;
      FirstFailureAppend(env, a[1..], b, value, data);
    } else {
      assert a + b == b;
    }
  }

  /** The label shown in a field's messages. */
  function LabelOf(labels: Assoc<string, string>, f: string): string {
    Get(labels, f).GetOr("")
  }

  /** The message for a field whose rules are `entries`, if one of them fails. */
  function FieldError(env: Env, entries: Specs, data: Assoc<string, Value>, labels: Assoc<string, string>, f: string): Option<string> {
    match FirstFailure(env, entries, Lookup(data, f), data)
    case None => None
    case Some(e) => Some(ErrorText(env.messages, e.0, LabelOf(labels, f), e.1))
  }

  /** The error a field gets from the rule registry, if one of its rules fails. */
  function RuleError(env: Env, rules: Assoc<string, Specs>, data: Assoc<string, Value>, labels: Assoc<string, string>, f: string): Option<string> {
    match Get(rules, f)
    case None => None
    case Some(entries) => FieldError(env, entries, data, labels, f)
  }

  /** `$errors[$field] = $message` when there is a message; nothing otherwise. */
  function Record(errors: Errors, f: string, message: Option<string>): (r: Errors)
    ensures |errors| <= |r| && Keys(r)[..|errors|] == Keys(errors)
    ensures Valid(errors) ==> Valid(r)
    ensures Valid(errors) ==> forall g :: Get(r, g) == if g == f && message.Some? then message else Get(errors, g)
  {
    match message
    case None => errors
    case Some(m) => Put(errors, f, m)
  }

  /** The rule pass: each field whose rules fail gets the first failing rule's message. */
  function RulesPass(env: Env, rules: Assoc<string, Specs>, data: Assoc<string, Value>, labels: Assoc<string, string>, errors: Errors): (r: Errors)
    ensures |errors| <= |r| && Keys(r)[..|errors|] == Keys(errors)
    ensures Valid(errors) ==> Valid(r)
    ensures Valid(rules) ==> Keys(r) == Keys(errors) + NewFailures(env, rules, data, labels, Keys(errors))
    decreases |rules|
  {
    if rules == [] then
      assert Keys(errors) + [] == Keys(errors);
      errors
    else
      var errors' := Record(errors, rules[0].0, FieldError(env, rules[0].1, data, labels, rules[0].0));
      var r := RulesPass(env, rules[1..], data, labels, errors');
      assert Keys(r)[..|errors|] == Keys(r)[..|errors'|][..|errors|];
      if Valid(rules) then
        assert Valid(rules[1..]);
        RecordKeyOrder(env, rules, data, labels, errors);
        r
      else r
  }

  /**
   * The fields of `rules` whose rules fail and that have no entry among
   * `present`, in registry order: the fields the rule pass appends.
   */
  function NewFailures(env: Env, rules: Assoc<string, Specs>, data: Assoc<string, Value>, labels: Assoc<string, string>, present: seq<string>): seq<string>
    decreases |rules|
  {
    if rules == [] then []
    else if FieldError(env, rules[0].1, data, labels, rules[0].0).Some? && rules[0].0 !in present then
      [rules[0].0] + NewFailures(env, rules[1..], data, labels, present)
    else NewFailures(env, rules[1..], data, labels, present)
  }

  /** The appended fields are exactly the failing fields that had no incoming error. */
  lemma {:induction false} NewFailuresExactly(env: Env, rules: Assoc<string, Specs>, data: Assoc<string, Value>, labels: Assoc<string, string>, present: seq<string>)
    requires Valid(rules)
    ensures forall f :: f in NewFailures(env, rules, data, labels, present) <==>
                        f !in present && RuleError(env, rules, data, labels, f).Some?
    decreases |rules|
  {
    if rules != [] {
      assert Valid(rules[1..]);
      NewFailuresExactly(env, rules[1..], data, labels, present);
      forall f {
        RuleErrorCons(env, rules, data, labels, f);
      }
    }
  }

  /** Marking a field the registry does not have as present changes nothing. */
  lemma {:induction false} NewFailuresAbsent(env: Env, rules: Assoc<string, Specs>, data: Assoc<string, Value>, labels: Assoc<string, string>, present: seq<string>, f: string)
    requires f !in Keys(rules)
    ensures NewFailures(env, rules, data, labels, present + [f]) == NewFailures(env, rules, data, labels, present)
    decreases |rules|
  {
    if rules != [] {
      assert Keys(rules) == [rules[0].0] + Keys(rules[1..]);
      NewFailuresAbsent(env, rules[1..], data, labels, present, f);
    }
  }

  /** One step of the rule pass: recording the first field's error moves it from the new failures to the keys, or leaves both alone. */
  lemma RecordKeyOrder(env: Env, rules: Assoc<string, Specs>, data: Assoc<string, Value>, labels: Assoc<string, string>, errors: Errors)
    requires Valid(rules) && rules != []
    ensures var errors' := Record(errors, rules[0].0, FieldError(env, rules[0].1, data, labels, rules[0].0));
            Keys(errors') + NewFailures(env, rules[1..], data, labels, Keys(errors')) ==
            Keys(errors) + NewFailures(env, rules, data, labels, Keys(errors))
  {
    var f, rest := rules[0].0, rules[1..];
    var m := FieldError(env, rules[0].1, data, labels, f);
    var ks := Keys(errors);
    if m.Some? && f !in ks {
      var errors' := Record(errors, f, m);
      assert Keys(errors') == ks + [f];
      assert NewFailures(env, rest, data, labels, ks + [f]) == NewFailures(env, rest, data, labels, ks) by {
        HeadKeyUnique(rules);
        NewFailuresAbsent(env, rest, data, labels, ks, f);
      }
      ConcatAssoc(ks, [f], NewFailures(env, rest, data, labels, ks));
    }
  }

  /** After the rule pass a field holds its rules' error, or the error it came in with. */
  lemma {:induction false} RulesPassErrors(env: Env, rules: Assoc<string, Specs>, data: Assoc<string, Value>, labels: Assoc<string, string>, errors: Errors)
    requires Valid(rules) && Valid(errors)
    ensures forall f :: Get(RulesPass(env, rules, data, labels, errors), f) ==
                        if RuleError(env, rules, data, labels, f).Some? then RuleError(env, rules, data, labels, f) else Get(errors, f)
    decreases |rules|
  {
    if rules != [] {
      var (f0, entries0) := rules[0];
      var rest := rules[1..];
      var errors' := Record(errors, f0, FieldError(env, entries0, data, labels, f0));
      var r := RulesPass(env, rest, data, labels, errors');
      assert r == RulesPass(env, rules, data, labels, errors);
      RulesPassErrors(env, rest, data, labels, errors');
      forall f
        ensures Get(r, f) == if RuleError(env, rules, data, labels, f).Some? then RuleError(env, rules, data, labels, f) else Get(errors, f)
      {
        RuleErrorCons(env, rules, data, labels, f);
      }
    }
  }

  /** The first field of a registry is looked up first; its key occurs nowhere else. */
  lemma RuleErrorCons(env: Env, rules: Assoc<string, Specs>, data: Assoc<string, Value>, labels: Assoc<string, string>, f: string)
    requires Valid(rules) && rules != []
    ensures RuleError(env, rules, data, labels, f) ==
            if f == rules[0].0 then FieldError(env, rules[0].1, data, labels, f) else RuleError(env, rules[1..], data, labels, f)
    ensures f == rules[0].0 ==> RuleError(env, rules[1..], data, labels, f) == None
  {
    assert Keys(rules) == [rules[0].0] + Keys(rules[1..]);
    assert rules[0].0 !in Keys(rules[1..]);
  }

  // ---------------------------------------------------------------------
  // Callbacks
  // ---------------------------------------------------------------------

  /** One field's callbacks in order; each is skipped while the field has an error. */
  function RunCallbacks(env: Env, cbs: seq<Callback>, state: Validation, f: string, errors: Errors): (r: Errors)
    ensures f in Keys(errors) ==> r == errors
    decreases |cbs|
  {
    if cbs == [] then errors
    else if f in Keys(errors) then RunCallbacks(env, cbs[1..], state, f, errors)
    else RunCallbacks(env, cbs[1..], state, f, env.callbackFn(cbs[0], state, f, errors))
  }

  /** A callback that reports an error for its field is the last of that field's callbacks to run. */
  lemma RunCallbacksStop(env: Env, cbs: seq<Callback>, state: Validation, f: string, errors: Errors)
    requires cbs != [] && f !in Keys(errors)
    requires f in Keys(env.callbackFn(cbs[0], state, f, errors))
    ensures RunCallbacks(env, cbs, state, f, errors) == env.callbackFn(cbs[0], state, f, errors)
  {
  }

  /** The callback pass: every field's callbacks, field by field. */
  function CallbacksPass(env: Env, callbacks: Assoc<string, seq<Callback>>, state: Validation, errors: Errors): (r: Errors)
    ensures (forall i :: 0 <= i < |callbacks| ==> callbacks[i].0 in Keys(errors)) ==> r == errors
    decreases |callbacks|
  {
    if callbacks == [] then errors
    else
      var errors' := RunCallbacks(env, callbacks[0].1, state, callbacks[0].0, errors);
      assert forall i :: 1 <= i < |callbacks| ==> callbacks[i] == callbacks[1..][i - 1];
      CallbacksPass(env, callbacks[1..], state, errors')
  }

  // ---------------------------------------------------------------------
  // check()
  // ---------------------------------------------------------------------

  datatype Outcome = Outcome(passed: bool, state: Validation, errors: Errors)

  /**
   * `check($errors)`: the object afterwards (its array reset and filtered),
   * the errors, and the verdict.  Nothing runs when no expected field was
   * submitted; otherwise the verdict is whether the errors ended up empty.
   */
  function Check(env: Env, v: Validation, errors: Errors): (o: Outcome)
    ensures o.state == v.(data := o.state.data)
    ensures Keys(o.state.data) == Keys(v.labels)
    ensures !Submitted(v.data, Keys(v.labels)) ==>
              && !o.passed && o.errors == errors
              && forall i :: 0 <= i < |o.state.data| ==> o.state.data[i].1 == Null
    ensures o.passed <==> Submitted(v.data, Keys(v.labels)) && o.errors == []
  {
    var expected := Keys(v.labels);
    var state := v.(data := Reset(v.data, expected));
    if !Submitted(v.data, expected) then
      Outcome(false, state, errors)
    else
      var filters := Prepared(v.filters, expected, [], SpecUnion);
      var rules := Prepared(v.rules, expected, [], SpecUnion);
      var callbacks := Prepared(v.callbacks, expected, [], CallbackUnion);
      var state' := state.(data := FiltersPass(env, filters, state.data));
      var errors' := RulesPass(env, rules, state'.data, v.labels, errors);
      var errors'' := CallbacksPass(env, callbacks, state', errors');
      Outcome(errors'' == [], state', errors'')
  }

  /** When no expected field was submitted nothing runs: the outcome does not depend on the environment. */
  lemma NothingSubmittedRunsNothing(env: Env, env': Env, v: Validation, errors: Errors)
    requires !Submitted(v.data, Keys(v.labels))
    ensures Check(env, v, errors) == Check(env', v, errors)
  {
  }

  /**
   * Errors passed in count against the verdict: without callbacks, which
   * could rewrite them, a non-empty incoming error list fails `check()`.
   */
  lemma IncomingErrorsCount(env: Env, v: Validation, errors: Errors)
    requires errors != [] && v.callbacks == []
    ensures !Check(env, v, errors).passed
  {
    assert Prepared(v.callbacks, Keys(v.labels), [], CallbackUnion) == [];
  }

  lemma KeysDistinct<K(!new), V>(m: Assoc<K, V>)
    requires Valid(m)
    ensures Distinct(Keys(m))
  {
  }

  /**
   * After `check()`, every expected field holds its submitted value passed
   * through its own filters followed by the wildcard filters, unless that
   * value was null or `''`.
   */
  lemma CheckFilteredValues(env: Env, v: Validation, errors: Errors, f: string)
    requires WellFormed(v) && Submitted(v.data, Keys(v.labels)) && f in Keys(v.labels)
    ensures Lookup(AsArray(Check(env, v, errors).state), f) ==
              var x := Lookup(v.data, f);
              match EntriesFor(v.filters, f, [], SpecUnion)
              case Some(entries) => if Blank(x) then x else Chain(env, entries, x)
              case None => x
  {
    var expected := Keys(v.labels);
    KeysDistinct(v.labels);
    var data := Reset(v.data, expected);
    var filters := Prepared(v.filters, expected, [], SpecUnion);
    PreparedEntries(v.filters, expected, [], SpecUnion, f);
    FiltersPassValues(env, filters, data);
    var i :| 0 <= i < |expected| && expected[i] == f;
    assert Get(data, f) == Some(data[i].1);
  }

  /**
   * Without callbacks, `check()` leaves each expected field with the message
   * of its first failing rule (its own rules first, then the wildcard ones,
   * run on the filtered value), or else with the error it came in with.
   */
  lemma CheckRuleErrors(env: Env, v: Validation, errors: Errors, f: string)
    requires WellFormed(v) && Valid(errors) && v.callbacks == []
    requires Submitted(v.data, Keys(v.labels)) && f in Keys(v.labels)
    ensures var o := Check(env, v, errors);
      Get(o.errors, f) ==
        match EntriesFor(v.rules, f, [], SpecUnion)
        case None => Get(errors, f)
        case Some(entries) =>
          match FirstFailure(env, entries, Lookup(o.state.data, f), o.state.data)
          case None => Get(errors, f)
          case Some(e) => Some(ErrorText(env.messages, e.0, LabelOf(v.labels, f), e.1))
  {
    var expected := Keys(v.labels);
    KeysDistinct(v.labels);
    var o := Check(env, v, errors);
    var rules := Prepared(v.rules, expected, [], SpecUnion);
    PreparedEntries(v.rules, expected, [], SpecUnion, f);
    assert Prepared(v.callbacks, expected, [], CallbackUnion) == [];
    RulesPassErrors(env, rules, o.state.data, v.labels, errors);
  }

  /**
   * The skip test compares the rule name exactly while method lookup
   * ignores case: on an empty value `not_empty` reports the field, but
   * `NOT_EMPTY` is skipped like any other rule.
   */
  lemma NotEmptySpelling(env: Env, value: Value, data: Assoc<string, Value>)
    requires Blank(value)
    ensures FirstFailure(env, [("not_empty", [])], value, data) == Some(("not_empty", []))
    ensures FirstFailure(env, [("NOT_EMPTY", [])], value, data) == None
  {
    ResolveName(NotEmpty);
  }
}

=== FILE: luhn.dfy ===
/**
 * The Luhn (mod 10) checksum used by the credit-card validator: digits at
 * odd positions counted from the right are added as they are; digits at even
 * positions are doubled, with 9 subtracted when the double is 10 or more.
 */
module Luhn {
  import opened Text

  /** The contribution of one digit. */
  function Term(d: nat, doubled: bool): nat {
    if !doubled then d else if 2 * d >= 10 then 2 * d - 9 else 2 * d
  }

  /** The digit at index `i` is doubled: it is the 2nd, 4th, ... counted from the right. */
  predicate Doubled(n: string, i: int) {
    (|n| - 1 - i) % 2 == 1
  }

  /** Sum of the terms of the digits at indexes `i` and onwards. */
  function SumFrom(n: string, i: nat): nat
    decreases |n| - i
  {
    if i >= |n| then 0 else Term(DigitValue(n[i]), Doubled(n, i)) + SumFrom(n, i + 1)
  }

  /** The Luhn checksum of a string of digits. */
  function Checksum(n: string): nat {
    SumFrom(n, 0)
  }

  /** The digits at undoubled positions from index `i` on, added as they are. */
  function Plain(n: string, i: nat): nat
    decreases |n| - i
  {
    if i >= |n| then 0 else (if Doubled(n, i) then 0 else DigitValue(n[i])) + Plain(n, i + 1)
  }

  /** The doubled-digit terms from index `i` on. */
  function Twice(n: string, i: nat): nat
    decreases |n| - i
  {
    if i >= |n| then 0 else (if Doubled(n, i) then Term(DigitValue(n[i]), true) else 0) + Twice(n, i + 1)
  }

  /** The two partial sums of `credit_card`'s two loops make up the checksum. */
  lemma {:induction false} PlainPlusTwice(n: string, i: nat)
    ensures Plain(n, i) + Twice(n, i) == SumFrom(n, i)
    decreases |n| - i
  {
    if i < |n| {
      PlainPlusTwice(n, i + 1);
    }
  }

  /**
   * The checksum as `credit_card` computes it: one loop adds every second digit
   * from the right, a second loop adds the doubled digits in between.
   */
  method ChecksumLoops(n: string) returns (checksum: int)
    ensures checksum == Checksum(n)
  {
    checksum := 0;
    var i := |n| - 1;
    while i >= 0
      invariant -2 <= i < |n|
      invariant (|n| - 1 - i) % 2 == 0
      invariant checksum == Plain(n, if i < 0 then 0 else i + 1)
    {
      PlainStep(n, i);
      checksum := checksum + DigitValue(n[i]);
      i := i - 2;
    }
    var j := |n| - 2;
    while j >= 0
      invariant -2 <= j <= |n| - 2
      invariant (|n| - 2 - j) % 2 == 0
      invariant checksum == Plain(n, 0) + Twice(n, if j < 0 then 0 else j + 1)
    {
      TwiceStep(n, j);
      var double := DigitValue(n[j]) * 2;
      checksum := checksum + (if double >= 10 then double - 9 else double);
      j := j - 2;
    }
    PlainPlusTwice(n, 0);
  }

  /** One step of the first loop: an undoubled digit, preceded by a doubled one. */
  lemma PlainStep(n: string, i: nat)
    requires i < |n| && (|n| - 1 - i) % 2 == 0
    ensures Plain(n, i) == DigitValue(n[i]) + Plain(n, i + 1)
    ensures i >= 1 ==> Plain(n, i - 1) == Plain(n, i)
  {
    assert !Doubled(n, i);
    if i >= 1 {
      assert Doubled(n, i - 1);
    }
  }

  /** One step of the second loop: a doubled digit, preceded by an undoubled one. */
  lemma TwiceStep(n: string, j: nat)
    requires j < |n| - 1 && (|n| - 2 - j) % 2 == 0
    ensures Twice(n, j) == Term(DigitValue(n[j]), true) + Twice(n, j + 1)
    ensures j >= 1 ==> Twice(n, j - 1) == Twice(n, j)
  {
    assert Doubled(n, j);
    if j >= 1 {
      assert !Doubled(n, j - 1);
    }
  }

  /** On digits, each kind of term is one-to-one. */
  lemma TermInjective(d1: nat, d2: nat, doubled: bool)
    requires d1 < 10 && d2 < 10 && d1 != d2
    ensures Term(d1, doubled) != Term(d2, doubled)
    ensures Term(d1, doubled) < 10 && Term(d2, doubled) < 10
  {
  }

  /** Replacing the digit at index `k` changes every suffix sum that covers it by the change in its term. */
  lemma {:induction false} SumFromUpdate(n: string, k: nat, c: char, i: nat)
    requires k < |n| && i <= k
    ensures SumFrom(n[k := c], i) + Term(DigitValue(n[k]), Doubled(n, k))
         == SumFrom(n, i) + Term(DigitValue(c), Doubled(n, k))
    decreases k - i
  {
    var m := n[k := c];
    if i < k {
      SumFromUpdate(n, k, c, i + 1);
    } else {
      SumFromTail(n, m, k + 1);
    }
  }

  /** Sums over a common tail agree. */
  lemma {:induction false} SumFromTail(n: string, m: string, i: nat)
    requires |n| == |m| && forall j :: i <= j < |n| ==> n[j] == m[j]
    ensures SumFrom(n, i) == SumFrom(m, i)
    decreases |n| - i
  {
    if i < |n| {
      SumFromTail(n, m, i + 1);
    }
  }

  /** The checksum catches every single mistyped digit. */
  lemma SingleDigitErrorDetected(n: string, k: nat, c: char)
    requires AllDigits(n) && k < |n| && IsDigit(c) && c != n[k]
    ensures Checksum(n[k := c]) % 10 != Checksum(n) % 10
  {
    var b := Doubled(n, k);
    assert DigitValue(c) != DigitValue(n[k]);
    TermInjective(DigitValue(c), DigitValue(n[k]), b);
    SumFromUpdate(n, k, c, 0);
    var x, y := Term(DigitValue(c), b), Term(DigitValue(n[k]), b);
    var s, t := Checksum(n[k := c]), Checksum(n);
    assert s + y == t + x;
    ModTenDiffers(s, t, x, y);
  }

  lemma ModTenDiffers(s: int, t: int, x: int, y: int)
    requires 0 <= x < 10 && 0 <= y < 10 && x != y && s + y == t + x
    ensures s % 10 != t % 10
  {
  }

  /** A valid test card number, and the same number with its last digit changed. */
  lemma Examples()
    ensures Checksum("4111111111111111") == 30
    ensures Checksum("4111111111111112") == 31
  {
    TestNumberChecksum("4111111111111111");
    TestNumberChecksum("4111111111111112");
  }

  /** A 16-digit number `4111...1d` has checksum 29 + d. */
  lemma TestNumberChecksum(n: string)
    requires |n| == 16 && n[0] == '4' && '0' <= n[15] <= '9'
    requires forall j :: 1 <= j < 15 ==> n[j] == '1'
    ensures Checksum(n) == 29 + DigitValue(n[15])
  {
    OnesBeforeLast(n, 1);
    assert SumFrom(n, 15) == DigitValue(n[15]);
    assert SumFrom(n, 0) == 8 + SumFrom(n, 1);
  }

  /**
   * A run of ones ending just before the last digit, of even length, adds 3
   * for every two of its digits: one is counted as it is, the other doubled.
   */
  lemma {:induction false} OnesBeforeLast(n: string, i: nat)
    requires i < |n| && (|n| - 1 - i) % 2 == 0
    requires forall j :: i <= j < |n| - 1 ==> n[j] == '1'
    ensures SumFrom(n, i) == SumFrom(n, |n| - 1) + 3 * ((|n| - 1 - i) / 2)
    decreases |n| - i
  {
    if i < |n| - 1 {
      assert n[i] == '1' && n[i + 1] == '1';
      OnesBeforeLast(n, i + 2);
    }
  }
}

=== FILE: messages.dfy ===
/**
 * Error messages: the template table, template selection for a failed
 * rule, and the substitution of the field label and the rule's parameters.
 * Translation is the identity here; only the placeholders are filled in.
 */
module Messages {
  import opened Wrappers
  import opened Assoc
  import opened Text
  import opened Values

  /** The shipped templates, by rule name; `default` is the fallback. */
  const DefaultMessages: Assoc<string, string> := [
    ("default", ":field value is invalid"),
    ("not_empty", ":field must not be empty"),
    ("matches", ":field must be the same as :params"),
    ("regex", ":field does not match the required format"),
    ("exact_length", ":field must be exactly :params characters long"),
    ("min_length", ":field must be at least :params characters long"),
    ("max_length", ":field must be less than :params characters long"),
    ("in_array", ":field must be of the these options: :params")
  ]

  /**
   * The template for a failed rule: the rule's own entry, else the `default`
   * entry; with no `default` entry either, the empty string.
   */
  function Template(messages: Assoc<string, string>, rule: string): (t: string)
    ensures rule in Keys(messages) ==> (rule, t) in messages
    ensures rule !in Keys(messages) && "default" in Keys(messages) ==> ("default", t) in messages
    ensures rule !in Keys(messages) && "default" !in Keys(messages) ==> t == ""
  {
    if rule in Keys(messages) then Get(messages, rule).value else Get(messages, "default").GetOr("")
  }

  /** The `:params` text: the parameters (the value excluded) as strings, joined by ", ". */
  function ParamsText(params: Params): string {
    Join(", ", seq(|params|, i requires 0 <= i < |params| => ToStr(params[i])))
  }

  /** The message stored for a field whose `rule` failed. */
  function ErrorText(messages: Assoc<string, string>, rule: string, fieldLabel: string, params: Params): string {
    Substitute(Template(messages, rule), fieldLabel, ParamsText(params))
  }

  /** `not_empty` failures read "<label> must not be empty". */
  lemma NotEmptyMessage(fieldLabel: string, params: Params)
    ensures ErrorText(DefaultMessages, "not_empty", fieldLabel, params) == fieldLabel + " must not be empty"
  {
    var tail := " must not be empty";
    assert DefaultMessages[0].0[0] != "not_empty"[0];
    assert DefaultMessages[1].1 == ":field must not be empty" == ":field" + tail;
    FieldThenText(tail, fieldLabel, ParamsText(params));
  }

  /** `min_length` failures name the label and the required length. */
  lemma MinLengthMessage(fieldLabel: string, n: int)
    ensures ErrorText(DefaultMessages, "min_length", fieldLabel, [Int(n)])
         == fieldLabel + (" must be at least " + (IntToString(n) + " characters long"))
  {
    ParamsTextOne(Int(n));
    MinLengthTemplate();
    MinLengthPieces();
    FieldTextParamsText(" must be at least ", " characters long", fieldLabel, IntToString(n));
  }

  lemma MinLengthTemplate()
    ensures Template(DefaultMessages, "min_length")
         == ":field" + (" must be at least " + (":params" + " characters long"))
  {
    MinLengthEntry();
    MinLengthTemplateText();
  }

  lemma ParamsTextOne(v: Value)
    ensures ParamsText([v]) == ToStr(v)
  {
  }

  lemma MinLengthPieces()
    ensures NoColon(" must be at least ") && NoColon(" characters long")
  {
  }

  lemma MessagesValid()
    ensures Valid(DefaultMessages)
  {
  }

  lemma MinLengthEntry()
    ensures Template(DefaultMessages, "min_length") == DefaultMessages[5].1
  {
    MessagesValid();
    var e := DefaultMessages[5];
    assert e.0 == "min_length";
    assert Get(DefaultMessages, e.0) == Some(e.1);
  }

  lemma MinLengthTemplateText()
    ensures DefaultMessages[5].1 == ":field" + (" must be at least " + (":params" + " characters long"))
  {
    assert DefaultMessages[5].1 == ":field must be at least :params characters long";
  }

  lemma FieldTextParamsText(middle: string, tail: string, fieldLabel: string, params: string)
    requires NoColon(middle) && NoColon(tail)
    ensures Substitute(":field" + (middle + (":params" + tail)), fieldLabel, params)
         == fieldLabel + (middle + (params + tail))
  {
    SubstituteLiteral(middle, ":params" + tail, fieldLabel, params);
    SubstituteParams(tail, fieldLabel, params);
    SubstituteField(middle + (":params" + tail), fieldLabel, params);
  }

  /** A rule without a template of its own gets the generic "<label> value is invalid". */
  lemma DefaultMessage(rule: string, fieldLabel: string, params: Params)
    requires rule !in Keys(DefaultMessages)
    ensures ErrorText(DefaultMessages, rule, fieldLabel, params) == fieldLabel + " value is invalid"
  {
    var tail := " value is invalid";
    assert DefaultMessages[0].1 == ":field value is invalid" == ":field" + tail;
    FieldThenText(tail, fieldLabel, ParamsText(params));
  }

  lemma FieldThenText(tail: string, fieldLabel: string, params: string)
    requires NoColon(tail)
    ensures Substitute(":field" + tail, fieldLabel, params) == fieldLabel + tail
  {
    SubstituteField(tail, fieldLabel, params);
  }
}

=== FILE: predicates.dfy ===
/**
 * The built-in validation rules whose behaviour does not depend on a regular
 * expression engine, a URL or date parser, the network or Unicode tables.
 * Each takes the (already converted) field value and its parameters.
 */
module Predicates {
  import opened Text
  import opened Values
  import opened Assoc
  import Luhn

  /** `not_empty`: the string `'0'` counts as filled in, every other PHP-empty value does not. */
  predicate NotEmpty(v: Value) {
    v == Str("0") || !IsEmpty(v)
  }

  /** The values `not_empty` rejects, listed. */
  lemma NotEmptyExactly(v: Value)
    ensures !NotEmpty(v) <==> v in [Null, Str(""), Int(0), Bool(false), List([])]
    ensures NotEmpty(v) <==> !LooselyNull(v)
  {
  }

  /** `min_length`: at least `n` code points. */
  predicate MinLength(s: string, n: int) { |s| >= n }

  /** `max_length`: at most `n` code points. */
  predicate MaxLength(s: string, n: int) { |s| <= n }

  /** `exact_length`: the length compared strictly (`===`) with the parameter, so only an integer parameter can match. */
  predicate ExactLength(s: string, n: Value) { n == Int(|s|) }

  /** The length trio agree: exactly `n` is at least `n` and at most `n`, and a non-integer parameter never matches exactly. */
  lemma LengthTrio(s: string, n: Value)
    ensures n.Int? ==> (ExactLength(s, n) <==> MinLength(s, n.i) && MaxLength(s, n.i))
    ensures !n.Int? ==> !ExactLength(s, n)
  {
  }

  /** The lengths `phone` accepts when none are given. */
  const DefaultPhoneLengths: seq<int> := [7, 10, 11]

  /** `phone`: the number of digits, ignoring every other character, is one of `lengths`. */
  predicate Phone(number: string, lengths: seq<int>) {
    |StripNonDigits(number)| in lengths
  }

  /** Formatting characters around the digits do not matter to `phone`. */
  lemma PhoneIgnoresFormatting(a: string, sep: string, b: string, lengths: seq<int>)
    requires StripNonDigits(sep) == []
    ensures Phone(a + sep + b, lengths) <==> Phone(a + b, lengths)
    ensures AllDigits(a + b) ==> (Phone(a + b, lengths) <==> |a + b| in lengths)
  {
    StripNonDigitsConcat(a + sep, b);
    StripNonDigitsConcat(a, sep);
    StripNonDigitsConcat(a, b);
  }

  /** `range`, over integers: `lo <= n <= hi`, both bounds included. */
  predicate Range(n: int, lo: int, hi: int) { lo <= n && n <= hi }

  /** `color`: an optional `#` followed by three or six hexadecimal digits, in either case. */
  predicate Color(s: string) {
    if |s| > 0 && s[0] == '#' then HexTriplets(s[1..]) else HexTriplets(s)
  }

  /** Three or six hexadecimal digits. */
  predicate HexTriplets(h: string) {
    (|h| == 3 || |h| == 6) && forall i :: 0 <= i < |h| ==> IsHexDigit(h[i])
  }

  /** Accepted colours are 3, 4, 6 or 7 characters long, and the longer of each pair starts with `#`. */
  lemma ColorShape(s: string)
    requires Color(s)
    ensures |s| in {3, 4, 6, 7}
    ensures (|s| == 4 || |s| == 7) <==> s[0] == '#'
  {
  }

  /** `#` is optional once and only once. */
  lemma ColorHash(h: string)
    requires |h| > 0 && h[0] != '#'
    ensures Color("#" + h) <==> Color(h)
    ensures !Color("##" + h)
  {
    assert ("#" + h)[0] == '#';
    assert ("#" + h)[1..] == h;
    assert ("##" + h)[0] == '#';
    assert ("##" + h)[1..] == "#" + h;
  }

  /** ASCII `alpha` (`ctype_alpha`): non-empty, letters only. */
  predicate AsciiAlpha(s: string) {
    |s| > 0 && forall i :: 0 <= i < |s| ==> IsAsciiLetter(s[i])
  }

  /** ASCII `alpha_numeric` (`ctype_alnum`): non-empty, letters and digits only. */
  predicate AsciiAlphaNumeric(s: string) {
    |s| > 0 && forall i :: 0 <= i < |s| ==> IsAsciiLetter(s[i]) || IsDigit(s[i])
  }

  /** ASCII `alpha_dash`: non-empty, letters, digits, `-` and `_` only. */
  predicate AsciiAlphaDash(s: string) {
    |s| > 0 && forall i :: 0 <= i < |s| ==> IsAsciiLetter(s[i]) || IsDigit(s[i]) || s[i] == '-' || s[i] == '_'
  }

  /** ASCII `digit` (`ctype_digit`): non-empty, digits only. */
  predicate AsciiDigit(s: string) {
    |s| > 0 && AllDigits(s)
  }

  /** The four classes nest: alpha and digit inside alpha_numeric inside alpha_dash; the empty string is in none. */
  lemma CharacterClassesNest(s: string)
    ensures AsciiAlpha(s) ==> AsciiAlphaNumeric(s)
    ensures AsciiDigit(s) ==> AsciiAlphaNumeric(s)
    ensures AsciiAlphaNumeric(s) ==> AsciiAlphaDash(s)
    ensures AsciiAlpha(s) ==> !AsciiDigit(s)
    ensures !AsciiAlphaDash([])
  {
    if AsciiAlpha(s) {
      assert IsAsciiLetter(s[0]);
    }
  }

  /** One or more characters, each a digit or the locale's decimal point. */
  predicate NumberChars(s: string, point: char) {
    |s| > 0 && forall i :: 0 <= i < |s| ==> IsDigit(s[i]) || s[i] == point
  }

  /** `numeric`: an optional minus sign, then one or more digits or decimal points. */
  predicate Numeric(s: string, point: char) {
    NumberChars(s, point) || (|s| > 0 && s[0] == '-' && NumberChars(s[1..], point))
  }

  /** Digits, the decimal point, then exactly `places` digits. */
  predicate DecimalCore(s: string, point: char, places: nat) {
    && |s| >= places + 2
    && s[|s| - places - 1] == point
    && AsciiDigit(s[..|s| - places - 1])
    && AllDigits(s[|s| - places..])
  }

  /**
   * `decimal`: `DecimalCore`, where, because its pattern lacks the `D`
   * modifier, the final `$` also matches before one trailing newline.
   */
  predicate Decimal(s: string, point: char, places: nat) {
    DecimalCore(s, point, places) || (|s| > 0 && s[|s| - 1] == '\n' && DecimalCore(s[..|s| - 1], point, places))
  }

  /** Every digit string is numeric, and so is every decimal without the trailing newline. */
  lemma NumericCovers(s: string, point: char, places: nat)
    ensures AsciiDigit(s) ==> Numeric(s, point)
    ensures DecimalCore(s, point, places) ==> Numeric(s, point)
  {
    if DecimalCore(s, point, places) {
      var k := |s| - places - 1;
      assert forall i :: 0 <= i < k ==> s[i] == s[..k][i];
      assert forall i :: k < i < |s| ==> s[i] == s[k + 1..][i - k - 1];
    }
  }

  /** The missing `D` modifier lets `decimal` accept what `numeric` rejects. */
  lemma DecimalTrailingNewline()
    ensures Decimal("1.50\n", '.', 2)
    ensures !Numeric("1.50\n", '.')
  {
    assert "1.50\n"[..4] == "1.50";
    assert "1.50"[..1] == "1";
    assert "1.50"[2..] == "50";
    assert "1.50\n"[4] == '\n';
  }

  /** One entry of the card-type table: the allowed digit counts, the prefix test, whether Luhn applies. */
  datatype CardType = CardType(lengths: seq<int>, prefix: string -> bool, luhn: bool)

  /** The card-type table, keyed by lower-case type name. */
  type CardTable = map<string, CardType>

  /** One named card type: known, allowed length, matching prefix, and the Luhn sum when required. */
  predicate CardOfType(cards: CardTable, digits: string, name: string) {
    && name in cards
    && |digits| in cards[name].lengths
    && cards[name].prefix(digits)
    && (!cards[name].luhn || Luhn.Checksum(digits) % 10 == 0)
  }

  /**
   * `credit_card`: non-digits are stripped first and an empty result fails.
   * A type that is loosely null means `default`; a list of types passes when
   * one of them does; any other type is lower-cased and looked up.
   */
  predicate CreditCard(cards: CardTable, number: string, t: Value)
    decreases t
  {
    var digits := StripNonDigits(number);
    if digits == [] then false
    else if LooselyNull(t) then CardOfType(cards, digits, "default")
    else if t.List? then exists i :: 0 <= i < |t.items| && CreditCard(cards, digits, t.items[i])
    else CardOfType(cards, digits, Lower(ToStr(t)))
  }

  /** No digits, no card; and stripping again changes nothing. */
  lemma CreditCardDigits(cards: CardTable, number: string, t: Value)
    ensures StripNonDigits(number) == [] ==> !CreditCard(cards, number, t)
    ensures CreditCard(cards, StripNonDigits(number), t) == CreditCard(cards, number, t)
  {
  }

  /** A list of types passes exactly when one of its members passes on the same number. */
  lemma CreditCardAnyType(cards: CardTable, number: string, ts: seq<Value>)
    requires ts != []
    ensures CreditCard(cards, number, List(ts)) <==> exists i :: 0 <= i < |ts| && CreditCard(cards, number, ts[i])
  {
    var digits := StripNonDigits(number);
    forall i | 0 <= i < |ts|
      ensures CreditCard(cards, digits, ts[i]) == CreditCard(cards, number, ts[i])
    {
      CreditCardDigits(cards, number, ts[i]);
    }
  }

  /** For one named type: the outcome is the Luhn test exactly when the table asks for it, and true otherwise. */
  lemma CreditCardOneType(cards: CardTable, number: string, t: Value)
    requires !LooselyNull(t) && !t.List?
    ensures var digits, name := StripNonDigits(number), Lower(ToStr(t));
      CreditCard(cards, number, t) <==>
        && digits != []
        && name in cards
        && |digits| in cards[name].lengths
        && cards[name].prefix(digits)
        && (cards[name].luhn ==> Luhn.Checksum(digits) % 10 == 0)
  {
  }

  /** The type name is matched whatever its case: `VISA`, `Visa` and `visa` are the same type. */
  lemma CreditCardIgnoresTypeCase(cards: CardTable, number: string, name: string)
    ensures CreditCard(cards, number, Str(name)) == CreditCard(cards, number, Str(Lower(name)))
  {
    LowerIdempotent(name);
    assert |Lower(name)| == |name|;
  }

  /**
   * With the type's Luhn flag off the checksum plays no part: two digit
   * strings of the same length that agree on the prefix test get the same
   * verdict.
   */
  lemma CreditCardLuhnOff(cards: CardTable, a: string, b: string, t: Value)
    requires !LooselyNull(t) && !t.List?
    requires Lower(ToStr(t)) in cards && !cards[Lower(ToStr(t))].luhn
    requires AllDigits(a) && AllDigits(b) && |a| == |b|
    requires cards[Lower(ToStr(t))].prefix(a) == cards[Lower(ToStr(t))].prefix(b)
    ensures CreditCard(cards, a, t) == CreditCard(cards, b, t)
  {
  }

  /**
   * With the type's Luhn flag on, a number that passes fails once any one
   * of its digits is mistyped.
   */
  lemma CreditCardCatchesTypo(cards: CardTable, number: string, t: Value, k: nat, c: char)
    requires !LooselyNull(t) && !t.List?
    requires Lower(ToStr(t)) in cards && cards[Lower(ToStr(t))].luhn
    requires AllDigits(number) && k < |number| && IsDigit(c) && c != number[k]
    requires CreditCard(cards, number, t)
    ensures !CreditCard(cards, number[k := c], t)
  {
    var typo := number[k := c];
    assert AllDigits(typo);
    assert StripNonDigits(typo) == typo;
    Luhn.SingleDigitErrorDetected(number, k, c);
  }

  /** A table with a Luhn-checked `visa` entry, as the configuration ships it. */
  function VisaTable(): (cards: CardTable)
    ensures "visa" in cards && cards["visa"].luhn
  {
    map["visa" := CardType([13, 16], (s: string) => |s| > 0 && s[0] == '4', true)]
  }

  /** The classic test number passes, whatever the case of the type name. */
  lemma CreditCardTestNumberPasses()
    ensures CreditCard(VisaTable(), "4111111111111111", Str("VISA"))
  {
    var n := "4111111111111111";
    TestNumberDigits();
    TestNumberIsVisa();
    LowerVisa();
    CreditCardOneType(VisaTable(), n, Str("VISA"));
  }

  lemma LowerVisa()
    ensures Lower(ToStr(Str("VISA"))) == "visa" && Lower(ToStr(Str("visa"))) == "visa"
    ensures !LooselyNull(Str("VISA")) && !LooselyNull(Str("visa"))
  {
  }

  /** Changing the last digit of the test number breaks its Luhn sum. */
  lemma CreditCardAlteredNumberFails()
    ensures !CreditCard(VisaTable(), "4111111111111112", Str("visa"))
  {
    var n := "4111111111111112";
    AlteredNumberDigits();
    AlteredNumberIsNotVisa();
    LowerVisa();
    CreditCardOneType(VisaTable(), n, Str("visa"));
  }

  /** A number without digits fails whatever its type. */
  lemma CreditCardLettersFail(t: Value)
    ensures !CreditCard(VisaTable(), "abc", t)
  {
    assert StripNonDigits("abc") == [];
  }

  lemma TestNumberDigits()
    ensures StripNonDigits("4111111111111111") == "4111111111111111"
  {
    KeepDigits("4111111111111111");
  }

  lemma KeepDigits(n: string)
    requires |n| == 16 && n[0] == '4' && forall i :: 1 <= i < 15 ==> n[i] == '1'
    requires IsDigit(n[15])
    ensures StripNonDigits(n) == n
  {
    assert AllDigits(n);
  }

  lemma AlteredNumberDigits()
    ensures StripNonDigits("4111111111111112") == "4111111111111112"
  {
    KeepDigits("4111111111111112");
  }

  lemma TestNumberIsVisa()
    ensures CardOfType(VisaTable(), "4111111111111111", "visa")
  {
    Luhn.Examples();
    assert VisaTable()["visa"].prefix("4111111111111111");
  }

  lemma AlteredNumberIsNotVisa()
    ensures !CardOfType(VisaTable(), "4111111111111112", "visa")
  {
    Luhn.Examples();
    var n := "4111111111111112";
    assert Luhn.Checksum(n) % 10 == 1;
    assert VisaTable()["visa"].luhn;
  }

  /** `matches`: strict equality with the sibling field's current value; a missing sibling reads as null. */
  predicate Matches(v: Value, data: Assoc<string, Value>, other: string) {
    v == Lookup(data, other)
  }

  /** Only a null value matches a missing sibling, and rules other than `not_empty` never run on null values. */
  lemma MatchesAbsentSibling(v: Value, data: Assoc<string, Value>, other: string)
    requires other !in Keys(data)
    ensures Matches(v, data, other) <==> v == Null
  {
  }
}

=== FILE: registry.dfy ===
/**
 * The validation object: the array under validation plus the registries
 * filled by the fluent registration calls (`label`, `filter`, `rule`,
 * `rule_set`, `callback`).  Every call returns the updated object.
 */
module Registry {
  import opened Wrappers
  import opened Assoc
  import opened Text
  import opened Values

  /** A registration target: one field, or the wildcard `TRUE` meaning every field. */
  datatype Key = Any | Field(name: string)

  /** A callable, identified by its name; identical callables compare equal. */
  type Callback = string

  /** Filter or rule identifiers with their extra parameters, in registration order. */
  type Specs = Assoc<string, Params>

  datatype Validation = Validation(
    data: Assoc<string, Value>,
    labels: Assoc<string, string>,
    filters: Assoc<Key, Specs>,
    rules: Assoc<Key, Specs>,
    callbacks: Assoc<Key, seq<Callback>>)

  predicate Distinct<T(==)>(s: seq<T>) {
    forall i, j :: 0 <= i < j < |s| ==> s[i] != s[j]
  }

  /** A registration target other than the wildcard has a label. */
  predicate Labelled(labels: Assoc<string, string>, k: Key) {
    k.Field? ==> k.name in Keys(labels)
  }

  /**
   * The states the registration calls can reach: every array has unique
   * keys, no callback list repeats a callable, and every field that has a
   * filter, rule or callback also has a label.
   */
  predicate WellFormed(v: Validation) {
    && Valid(v.data) && Valid(v.labels) && Valid(v.filters) && Valid(v.rules) && Valid(v.callbacks)
    && (forall i :: 0 <= i < |v.filters| ==> Valid(v.filters[i].1) && Labelled(v.labels, v.filters[i].0))
    && (forall i :: 0 <= i < |v.rules| ==> Valid(v.rules[i].1) && Labelled(v.labels, v.rules[i].0))
    && (forall i :: 0 <= i < |v.callbacks| ==> Distinct(v.callbacks[i].1) && Labelled(v.labels, v.callbacks[i].0))
  }

  /** The entries registered directly under `k` (none when `k` has no entry). */
  function Own<V>(reg: Assoc<Key, seq<V>>, k: Key): seq<V> {
    Get(reg, k).GetOr([])
  }

  /** A fresh object over `data`, with nothing registered. */
  function Factory(data: Assoc<string, Value>): (v: Validation)
    ensures v.data == data
    ensures Valid(data) <==> WellFormed(v)
  {
    var v := Validation(data, [], [], [], []);
    assert |v.filters| == |v.rules| == |v.callbacks| == 0;
    v
  }

  /** `as_array`: the current, possibly filtered, values. */
  function AsArray(v: Validation): Assoc<string, Value> {
    v.data
  }

  /** `label`: set or overwrite the label of `field`. */
  function Label(v: Validation, field: string, text: string): (r: Validation)
    ensures r == v.(labels := r.labels)
    ensures Valid(v.labels) ==> Get(r.labels, field) == Some(text)
    ensures Valid(v.labels) ==> forall f :: f != field ==> Get(r.labels, f) == Get(v.labels, f)
    ensures field in Keys(v.labels) ==> Keys(r.labels) == Keys(v.labels)
    ensures field !in Keys(v.labels) ==> r.labels == v.labels + [(field, text)]
  {
    v.(labels := Put(v.labels, field, text))
  }

  /**
   * The label a registration on `k` leaves behind: the wildcard and an
   * already labelled field keep the labels as they are; an unlabelled field
   * gets its name with every run of non-letters turned into one space.
   */
  function EnsureLabel(labels: Assoc<string, string>, isLetter: char -> bool, k: Key): (r: Assoc<string, string>)
    ensures !k.Field? || k.name in Keys(labels) ==> r == labels
    ensures k.Field? && k.name !in Keys(labels) ==> r == labels + [(k.name, DefaultLabel(isLetter, k.name))]
    ensures Labelled(r, k)
    ensures forall k' :: Labelled(labels, k') ==> Labelled(r, k')
    ensures Valid(labels) ==> Valid(r)
  {
    if k.Field? && k.name !in Keys(labels) then
      var r := Put(labels, k.name, DefaultLabel(isLetter, k.name));
      assert Keys(r) == Keys(labels) + [k.name];
      r
    else labels
  }

  /**
   * `$reg[$k][$id] = $params`: the parameters of `id` under `k` are replaced
   * in place when `id` is already registered there, and appended otherwise;
   * every other target is left alone.
   */
  function AddSpec(reg: Assoc<Key, Specs>, k: Key, id: string, params: Params): (r: Assoc<Key, Specs>)
    ensures Valid(reg) && id in Keys(Own(reg, k)) ==> Keys(Own(r, k)) == Keys(Own(reg, k))
    ensures Valid(reg) && id !in Keys(Own(reg, k)) ==> Own(r, k) == Own(reg, k) + [(id, params)]
    ensures Valid(reg) ==> Valid(r)
    ensures Valid(reg) ==> Get(r, k).Some?
    ensures Valid(reg) && Valid(Own(reg, k)) ==> Valid(Own(r, k)) && Get(Own(r, k), id) == Some(params)
    ensures Valid(reg) && Valid(Own(reg, k)) ==> forall id' :: id' != id ==> Get(Own(r, k), id') == Get(Own(reg, k), id')
    ensures Valid(reg) ==> forall k' :: k' != k ==> Get(r, k') == Get(reg, k')
    ensures forall k' :: k' in Keys(r) <==> k' in Keys(reg) || k' == k
    ensures k in Keys(reg) ==> Keys(r) == Keys(reg)
    ensures k !in Keys(reg) ==> r == reg + [(k, [(id, params)])]
  {
    var own := Own(reg, k);
    if k !in Keys(reg) then
      assert own == [] && Put(own, id, params) == [] + [(id, params)];
      assert [] + [(id, params)] == [(id, params)];
      Put(reg, k, Put(own, id, params))
    else Put(reg, k, Put(own, id, params))
  }

  /** `filter`: register filter `id` with `params` on `k`, labelling the field on first use. */
  function Filter(v: Validation, isLetter: char -> bool, k: Key, id: string, params: Params): (r: Validation)
    ensures r == v.(labels := r.labels, filters := r.filters)
    ensures k.Field? && k.name !in Keys(v.labels) ==> r.labels == v.labels + [(k.name, DefaultLabel(isLetter, k.name))]
    ensures !k.Field? || k.name in Keys(v.labels) ==> r.labels == v.labels
    ensures Valid(v.filters) && Valid(Own(v.filters, k)) ==> Get(Own(r.filters, k), id) == Some(params)
    ensures Valid(v.filters) && id in Keys(Own(v.filters, k)) ==> Keys(Own(r.filters, k)) == Keys(Own(v.filters, k))
    ensures Valid(v.filters) && id !in Keys(Own(v.filters, k)) ==> Own(r.filters, k) == Own(v.filters, k) + [(id, params)]
    ensures Valid(v.filters) && Valid(Own(v.filters, k)) ==> forall id' :: id' != id ==> Get(Own(r.filters, k), id') == Get(Own(v.filters, k), id')
    ensures Valid(v.filters) ==> forall k' :: k' != k ==> Get(r.filters, k') == Get(v.filters, k')
    ensures k in Keys(v.filters) ==> Keys(r.filters) == Keys(v.filters)
    ensures k !in Keys(v.filters) ==> r.filters == v.filters + [(k, [(id, params)])]
  {
    v.(labels := EnsureLabel(v.labels, isLetter, k), filters := AddSpec(v.filters, k, id, params))
  }

  /** `rule`: register rule `id` with `params` on `k`, labelling the field on first use. */
  function Rule(v: Validation, isLetter: char -> bool, k: Key, id: string, params: Params): (r: Validation)
    ensures r == v.(labels := r.labels, rules := r.rules)
    ensures k.Field? && k.name !in Keys(v.labels) ==> r.labels == v.labels + [(k.name, DefaultLabel(isLetter, k.name))]
    ensures !k.Field? || k.name in Keys(v.labels) ==> r.labels == v.labels
    ensures Valid(v.rules) && Valid(Own(v.rules, k)) ==> Get(Own(r.rules, k), id) == Some(params)
    ensures Valid(v.rules) && id in Keys(Own(v.rules, k)) ==> Keys(Own(r.rules, k)) == Keys(Own(v.rules, k))
    ensures Valid(v.rules) && id !in Keys(Own(v.rules, k)) ==> Own(r.rules, k) == Own(v.rules, k) + [(id, params)]
    ensures Valid(v.rules) && Valid(Own(v.rules, k)) ==> forall id' :: id' != id ==> Get(Own(r.rules, k), id') == Get(Own(v.rules, k), id')
    ensures Valid(v.rules) ==> forall k' :: k' != k ==> Get(r.rules, k') == Get(v.rules, k')
    ensures k in Keys(v.rules) ==> Keys(r.rules) == Keys(v.rules)
    ensures k !in Keys(v.rules) ==> r.rules == v.rules + [(k, [(id, params)])]
  {
    v.(labels := EnsureLabel(v.labels, isLetter, k), rules := AddSpec(v.rules, k, id, params))
  }

  /** Adding a spec keeps a registry's arrays valid and its targets labelled. */
  lemma SpecsStayWellFormed(reg: Assoc<Key, Specs>, reg': Assoc<Key, Specs>,
                            labels: Assoc<string, string>, labels': Assoc<string, string>,
                            k: Key, id: string, params: Params)
    requires Valid(reg) && (forall i :: 0 <= i < |reg| ==> Valid(reg[i].1) && Labelled(labels, reg[i].0))
    requires reg' == AddSpec(reg, k, id, params)
    requires Labelled(labels', k) && forall k' :: Labelled(labels, k') ==> Labelled(labels', k')
    ensures Valid(reg') && forall i :: 0 <= i < |reg'| ==> Valid(reg'[i].1) && Labelled(labels', reg'[i].0)
  {
    var own := Own(reg, k);
    assert Valid(own) by {
      if k in Keys(reg) {
        var i :| 0 <= i < |reg| && reg[i].0 == k;
        assert Get(reg, k) == Some(reg[i].1);
      }
    }
    forall i | 0 <= i < |reg'|
      ensures Valid(reg'[i].1) && Labelled(labels', reg'[i].0)
    {
      var k' := reg'[i].0;
      assert Get(reg', k') == Some(reg'[i].1);
      if k' == k {
        assert reg'[i].1 == Own(reg', k);
      } else {
        var j :| 0 <= j < |reg| && reg[j].0 == k';
        assert Get(reg, k') == Some(reg[j].1);
      }
    }
  }

  /** `rule_set`: `rule` for each entry of `rules`, in order. */
  function RuleSet(v: Validation, isLetter: char -> bool, k: Key, rules: Specs): (r: Validation)
    ensures r == v.(labels := r.labels, rules := r.rules)
    ensures rules == [] ==> r == v
    ensures rules != [] ==> r.labels == EnsureLabel(v.labels, isLetter, k)
    ensures r.rules == AddSpecs(v.rules, k, rules)
    decreases |rules|
  {
    if rules == [] then v
    else RuleSet(Rule(v, isLetter, k, rules[0].0, rules[0].1), isLetter, k, rules[1..])
  }

  /** `AddSpec` for each entry of `specs`, in order. */
  function AddSpecs(reg: Assoc<Key, Specs>, k: Key, specs: Specs): Assoc<Key, Specs>
    decreases |specs|
  {
    if specs == [] then reg else AddSpecs(AddSpec(reg, k, specs[0].0, specs[0].1), k, specs[1..])
  }

  /**
   * After `rule_set`, each of its rules is registered on `k` with its
   * parameters, the other rules of `k` are as before, and no other target
   * changes.
   */
  lemma RuleSetRegistersEach(v: Validation, isLetter: char -> bool, k: Key, rules: Specs)
    requires WellFormed(v) && Valid(rules)
    ensures var r := RuleSet(v, isLetter, k, rules);
      && (forall i :: 0 <= i < |rules| ==> Get(Own(r.rules, k), rules[i].0) == Some(rules[i].1))
      && (forall id :: id !in Keys(rules) ==> Get(Own(r.rules, k), id) == Get(Own(v.rules, k), id))
      && (forall k' :: k' != k ==> Get(r.rules, k') == Get(v.rules, k'))
  {
    OwnValid(v.rules, k);
    AddSpecsEach(v.rules, k, rules);
  }

  lemma {:induction false} AddSpecsEach(reg: Assoc<Key, Specs>, k: Key, specs: Specs)
    requires Valid(reg) && Valid(Own(reg, k)) && Valid(specs)
    ensures var r := AddSpecs(reg, k, specs);
      && (forall i :: 0 <= i < |specs| ==> Get(Own(r, k), specs[i].0) == Some(specs[i].1))
      && (forall id :: id !in Keys(specs) ==> Get(Own(r, k), id) == Get(Own(reg, k), id))
      && (forall k' :: k' != k ==> Get(r, k') == Get(reg, k'))
    decreases |specs|
  {
    if specs != [] {
      var reg' := AddSpec(reg, k, specs[0].0, specs[0].1);
      assert Valid(specs[1..]) && specs[0].0 !in Keys(specs[1..]) by {
        HeadKeyUnique(specs);
      }
      AddSpecsEach(reg', k, specs[1..]);
      AddSpecsStep(Own(reg, k), Own(reg', k), Own(AddSpecs(reg', k, specs[1..]), k), specs);
    }
  }

  /**
   * One step of `AddSpecsEach`, over the three versions of the target's
   * entries: before the first spec, after it, and after the rest.
   */
  lemma AddSpecsStep(own: Specs, own': Specs, own'': Specs, specs: Specs)
    requires specs != [] && specs[0].0 !in Keys(specs[1..])
    requires Get(own', specs[0].0) == Some(specs[0].1)
    requires forall id :: id != specs[0].0 ==> Get(own', id) == Get(own, id)
    requires forall i :: 0 <= i < |specs[1..]| ==> Get(own'', specs[1..][i].0) == Some(specs[1..][i].1)
    requires forall id :: id !in Keys(specs[1..]) ==> Get(own'', id) == Get(own', id)
    ensures forall i :: 0 <= i < |specs| ==> Get(own'', specs[i].0) == Some(specs[i].1)
    ensures forall id :: id !in Keys(specs) ==> Get(own'', id) == Get(own, id)
  {
    assert Keys(specs) == [specs[0].0] + Keys(specs[1..]);
    forall i | 0 <= i < |specs|
      ensures Get(own'', specs[i].0) == Some(specs[i].1)
    {
      if i > 0 {
        assert specs[i] == specs[1..][i - 1];
      }
    }
  }

  /** The entries of one target of a well-formed registry form a valid array. */
  lemma OwnValid(reg: Assoc<Key, Specs>, k: Key)
    requires Valid(reg) && forall i :: 0 <= i < |reg| ==> Valid(reg[i].1)
    ensures Valid(Own(reg, k))
  {
    if k in Keys(reg) {
      var i :| 0 <= i < |reg| && reg[i].0 == k;
      assert Get(reg, k) == Some(reg[i].1);
    }
  }

  /**
   * `callback`: append `cb` to the callables of `k` unless it is already
   * there, labelling the field on first use.
   */
  function AddCallback(v: Validation, isLetter: char -> bool, k: Key, cb: Callback): (r: Validation)
    ensures r == v.(labels := r.labels, callbacks := r.callbacks)
    ensures r.labels == EnsureLabel(v.labels, isLetter, k)
    ensures Valid(v.callbacks) ==> cb in Own(r.callbacks, k)
    ensures Valid(v.callbacks) && cb in Own(v.callbacks, k) ==> r.callbacks == v.callbacks
    ensures Valid(v.callbacks) && cb !in Own(v.callbacks, k) ==> Own(r.callbacks, k) == Own(v.callbacks, k) + [cb]
    ensures Valid(v.callbacks) ==> forall k' :: k' != k ==> Get(r.callbacks, k') == Get(v.callbacks, k')
    ensures k in Keys(v.callbacks) ==> Keys(r.callbacks) == Keys(v.callbacks)
    ensures k !in Keys(v.callbacks) ==> r.callbacks == v.callbacks + [(k, [cb])]
  {
    var own := Own(v.callbacks, k);
    var callbacks := if cb in own && k in Keys(v.callbacks) then v.callbacks else Put(v.callbacks, k, if cb in own then own else own + [cb]);
    assert k !in Keys(v.callbacks) ==> own == [] && own + [cb] == [cb];
    v.(labels := EnsureLabel(v.labels, isLetter, k), callbacks := callbacks)
  }

  /** Adding a callable keeps the callback lists free of repeats and their targets labelled. */
  lemma CallbacksStayWellFormed(v: Validation, r: Validation, isLetter: char -> bool, k: Key, cb: Callback)
    requires WellFormed(v)
    requires r.data == v.data && r.filters == v.filters && r.rules == v.rules
    requires r.labels == EnsureLabel(v.labels, isLetter, k)
    requires var own := Own(v.callbacks, k);
      r.callbacks == if cb in own && k in Keys(v.callbacks) then v.callbacks else Put(v.callbacks, k, if cb in own then own else own + [cb])
    ensures WellFormed(r)
  {
    var own := Own(v.callbacks, k);
    if !(cb in own && k in Keys(v.callbacks)) {
      var own' := if cb in own then own else own + [cb];
      assert Distinct(own') by {
        OwnDistinct(v.callbacks, k);
      }
      CallbackListsStayWellFormed(v.callbacks, r.callbacks, v.labels, r.labels, k, own');
    }
  }

  /** Writing a repeat-free list of callables under a labelled target keeps every list repeat-free and labelled. */
  lemma CallbackListsStayWellFormed(cbs: Assoc<Key, seq<Callback>>, cbs': Assoc<Key, seq<Callback>>,
                                    labels: Assoc<string, string>, labels': Assoc<string, string>,
                                    k: Key, own': seq<Callback>)
    requires Valid(cbs) && forall i :: 0 <= i < |cbs| ==> Distinct(cbs[i].1) && Labelled(labels, cbs[i].0)
    requires Distinct(own') && cbs' == Put(cbs, k, own')
    requires Labelled(labels', k) && forall k' :: Labelled(labels, k') ==> Labelled(labels', k')
    ensures Valid(cbs') && forall i :: 0 <= i < |cbs'| ==> Distinct(cbs'[i].1) && Labelled(labels', cbs'[i].0)
  {
    forall i | 0 <= i < |cbs'|
      ensures Distinct(cbs'[i].1) && Labelled(labels', cbs'[i].0)
    {
      var k' := cbs'[i].0;
      assert Get(cbs', k') == Some(cbs'[i].1);
      if k' != k {
        var j :| 0 <= j < |cbs| && cbs[j].0 == k';
        assert Get(cbs, k') == Some(cbs[j].1);
      }
    }
  }

  /** The callables of one target of a well-formed object are free of repeats. */
  lemma OwnDistinct(callbacks: Assoc<Key, seq<Callback>>, k: Key)
    requires Valid(callbacks) && forall i :: 0 <= i < |callbacks| ==> Distinct(callbacks[i].1)
    ensures Distinct(Own(callbacks, k))
  {
    if k in Keys(callbacks) {
      var i :| 0 <= i < |callbacks| && callbacks[i].0 == k;
      assert Get(callbacks, k) == Some(callbacks[i].1);
    }
  }

  /** `label` keeps the object well formed. */
  lemma LabelKeepsWellFormed(v: Validation, field: string, text: string)
    requires WellFormed(v)
    ensures WellFormed(Label(v, field, text))
  {
  }

  /** `filter` keeps the object well formed. */
  lemma FilterKeepsWellFormed(v: Validation, isLetter: char -> bool, k: Key, id: string, params: Params)
    requires WellFormed(v)
    ensures WellFormed(Filter(v, isLetter, k, id, params))
  {
    var r := Filter(v, isLetter, k, id, params);
    SpecsStayWellFormed(v.filters, r.filters, v.labels, r.labels, k, id, params);
  }

  /** `rule` keeps the object well formed. */
  lemma RuleKeepsWellFormed(v: Validation, isLetter: char -> bool, k: Key, id: string, params: Params)
    requires WellFormed(v)
    ensures WellFormed(Rule(v, isLetter, k, id, params))
  {
    var r := Rule(v, isLetter, k, id, params);
    SpecsStayWellFormed(v.rules, r.rules, v.labels, r.labels, k, id, params);
  }

  /** `rule_set` keeps the object well formed. */
  lemma {:induction false} RuleSetKeepsWellFormed(v: Validation, isLetter: char -> bool, k: Key, rules: Specs)
    requires WellFormed(v)
    ensures WellFormed(RuleSet(v, isLetter, k, rules))
    decreases |rules|
  {
    if rules != [] {
      RuleKeepsWellFormed(v, isLetter, k, rules[0].0, rules[0].1);
      RuleSetKeepsWellFormed(Rule(v, isLetter, k, rules[0].0, rules[0].1), isLetter, k, rules[1..]);
    }
  }

  /** `callback` keeps the object well formed. */
  lemma AddCallbackKeepsWellFormed(v: Validation, isLetter: char -> bool, k: Key, cb: Callback)
    requires WellFormed(v)
    ensures WellFormed(AddCallback(v, isLetter, k, cb))
  {
    CallbacksStayWellFormed(v, AddCallback(v, isLetter, k, cb), isLetter, k, cb);
  }

  /** Registering the same callable twice has the effect of registering it once. */
  lemma AddCallbackIdempotent(v: Validation, isLetter: char -> bool, k: Key, cb: Callback)
    requires WellFormed(v)
    ensures AddCallback(AddCallback(v, isLetter, k, cb), isLetter, k, cb) == AddCallback(v, isLetter, k, cb)
  {
  }
}

=== FILE: scenarios.dfy ===
/**
 * A sign-up form run end to end: an empty user name and an e-mail address
 * the (external) e-mail syntax check rejects.
 */
module Scenarios {
  import opened Wrappers
  import opened Assoc
  import opened Values
  import opened Text
  import opened Registry
  import opened Dispatch
  import opened Messages
  import opened Engine

  function SignupData(): Assoc<string, Value> {
    [("username", Str("")), ("email", Str("bad"))]
  }

  /** `Validate::factory($post)->rule('username', 'not_empty')->rule('email', 'email')`. */
  function SignupForm(isLetter: char -> bool): (v: Validation)
    ensures WellFormed(v) && v.callbacks == [] && v.filters == []
  {
    TwoRulesWellFormed(SignupData(), isLetter);
    Rule(Rule(Factory(SignupData()), isLetter, Field("username"), "not_empty", []), isLetter, Field("email"), "email", [])
  }

  /** Two `rule` calls on a fresh object leave it well formed, with no filters or callbacks. */
  lemma TwoRulesWellFormed(data: Assoc<string, Value>, isLetter: char -> bool)
    requires data == SignupData()
    ensures var v := Rule(Rule(Factory(data), isLetter, Field("username"), "not_empty", []), isLetter, Field("email"), "email", []);
            WellFormed(v) && v.callbacks == [] && v.filters == []
  {
    var v0 := Factory(data);
    assert WellFormed(v0) && v0.callbacks == [] && v0.filters == [] by {
      DistinctNames();
      assert Valid(SignupData());
    }
    var v1 := Rule(v0, isLetter, Field("username"), "not_empty", []);
    assert WellFormed(v1) && v1.callbacks == [] && v1.filters == [] by {
      RuleKeepsWellFormed(v0, isLetter, Field("username"), "not_empty", []);
    }
    RuleKeepsWellFormed(v1, isLetter, Field("email"), "email", []);
  }

  /**
   * Both fields fail: the user name with the `not_empty` message, the e-mail
   * address with the generic message, since the table has no `email` entry.
   */
  lemma SignupFails(env: Env, isLetter: char -> bool)
    requires env.messages == DefaultMessages
    requires !env.rules.unmodelled(Email, Str("bad"), [])
    ensures var o := Check(env, SignupForm(isLetter), []);
      && !o.passed
      && Get(o.errors, "username") == Some(DefaultLabel(isLetter, "username") + " must not be empty")
      && Get(o.errors, "email") == Some(DefaultLabel(isLetter, "email") + " value is invalid")
  {
    UsernameFails(env, isLetter);
    EmailFails(env, isLetter);
  }

  lemma UsernameFails(env: Env, isLetter: char -> bool)
    requires env.messages == DefaultMessages
    ensures var o := Check(env, SignupForm(isLetter), []);
      Get(o.errors, "username") == Some(DefaultLabel(isLetter, "username") + " must not be empty")
  {
    var v := SignupForm(isLetter);
    var o := Check(env, v, []);
    SignupSubmitted(isLetter);
    SignupDataShape(isLetter);
    SignupRulesShape(isLetter);
    SignupLabelsShape(isLetter);
    CheckFilteredValues(env, v, [], "username");
    CheckRuleErrors(env, v, [], "username");
    NotEmptySpelling(env, Str(""), o.state.data);
    NotEmptyMessage(DefaultLabel(isLetter, "username"), []);
  }

  lemma EmailFails(env: Env, isLetter: char -> bool)
    requires env.messages == DefaultMessages
    requires !env.rules.unmodelled(Email, Str("bad"), [])
    ensures var o := Check(env, SignupForm(isLetter), []);
      Get(o.errors, "email") == Some(DefaultLabel(isLetter, "email") + " value is invalid")
  {
    var v := SignupForm(isLetter);
    var o := Check(env, v, []);
    SignupSubmitted(isLetter);
    SignupDataShape(isLetter);
    SignupRulesShape(isLetter);
    SignupLabelsShape(isLetter);
    CheckFilteredValues(env, v, [], "email");
    assert Lookup(o.state.data, "email") == Str("bad");
    EmailRuleFails(env, o.state.data);
    CheckRuleErrors(env, v, [], "email");
    EmailHasNoTemplate();
    DefaultMessage("email", DefaultLabel(isLetter, "email"), []);
  }

  lemma EmailRuleFails(env: Env, data: Assoc<string, Value>)
    requires !env.rules.unmodelled(Email, Str("bad"), [])
    ensures FirstFailure(env, [("email", [])], Str("bad"), data) == Some(("email", []))
  {
    ResolveName(Email);
    assert !Passes(env, ("email", []), Str("bad"), data);
  }

  lemma SignupSubmitted(isLetter: char -> bool)
    ensures var v := SignupForm(isLetter);
      Submitted(v.data, Keys(v.labels))
  {
    var v := SignupForm(isLetter);
    SignupDataShape(isLetter);
    SignupLabelsShape(isLetter);
    assert Keys(v.labels)[1] == "email";
  }

  lemma SignupDataShape(isLetter: char -> bool)
    ensures var v := SignupForm(isLetter);
      && Lookup(v.data, "username") == Str("")
      && Lookup(v.data, "email") == Str("bad")
  {
    SignupSteps(isLetter);
    DistinctNames();
    var v := SignupForm(isLetter);
    PairLookups(v.data, "username", Str(""), "email", Str("bad"));
  }

  lemma SignupRulesShape(isLetter: char -> bool)
    ensures var v := SignupForm(isLetter);
      && Get(v.rules, Field("username")) == Some([("not_empty", [])])
      && Get(v.rules, Field("email")) == Some([("email", [])])
      && Get(v.rules, Any) == None && Get(v.filters, Any) == None
  {
    SignupSteps(isLetter);
    DistinctNames();
    var v := SignupForm(isLetter);
    PairLookups(v.rules, Field("username"), [("not_empty", [])], Field("email"), [("email", [])]);
  }

  lemma SignupLabelsShape(isLetter: char -> bool)
    ensures var v := SignupForm(isLetter);
      && Keys(v.labels) == ["username", "email"]
      && LabelOf(v.labels, "username") == DefaultLabel(isLetter, "username")
      && LabelOf(v.labels, "email") == DefaultLabel(isLetter, "email")
  {
    SignupSteps(isLetter);
    DistinctNames();
    var v := SignupForm(isLetter);
    PairLookups(v.labels, "username", DefaultLabel(isLetter, "username"), "email", DefaultLabel(isLetter, "email"));
  }

  /** Lookups in a two-entry array with different keys. */
  lemma PairLookups<K(!new), V>(m: Assoc<K, V>, a: K, x: V, b: K, y: V)
    requires m == [(a, x), (b, y)] && a != b
    ensures Keys(m) == [a, b]
    ensures Get(m, a) == Some(x) && Get(m, b) == Some(y)
    ensures forall k :: k != a && k != b ==> Get(m, k) == None
  {
    assert Keys(m) == [a, b];
  }

  lemma SignupSteps(isLetter: char -> bool)
    ensures var l1, l2 := DefaultLabel(isLetter, "username"), DefaultLabel(isLetter, "email");
      SignupForm(isLetter) == Validation(SignupData(), [("username", l1), ("email", l2)], [],
                                         [(Field("username"), [("not_empty", [])]), (Field("email"), [("email", [])])], [])
  {
    DistinctNames();
    TwoRules(Factory(SignupData()), isLetter, "username", "not_empty", "email", "email");
  }

  lemma DistinctNames()
    ensures "email" != "username"
  {
    assert "email"[0] != "username"[0];
  }

  /** Rules on two different fields of an object with nothing registered. */
  lemma TwoRules(v: Validation, isLetter: char -> bool, f1: string, id1: string, f2: string, id2: string)
    requires v.labels == [] && v.rules == [] && f1 != f2
    ensures Rule(Rule(v, isLetter, Field(f1), id1, []), isLetter, Field(f2), id2, [])
         == v.(labels := [(f1, DefaultLabel(isLetter, f1)), (f2, DefaultLabel(isLetter, f2))],
               rules := [(Field(f1), [(id1, [])]), (Field(f2), [(id2, [])])])
  {
    RuleOnFreshField(v, isLetter, f1, id1, []);
    SecondRule(Rule(v, isLetter, Field(f1), id1, []), isLetter, f1, DefaultLabel(isLetter, f1), id1, f2, id2);
  }

  lemma SecondRule(v1: Validation, isLetter: char -> bool, f1: string, l1: string, id1: string, f2: string, id2: string)
    requires v1.labels == [(f1, l1)] && v1.rules == [(Field(f1), [(id1, [])])] && f1 != f2
    ensures Rule(v1, isLetter, Field(f2), id2, [])
         == v1.(labels := [(f1, l1), (f2, DefaultLabel(isLetter, f2))], rules := [(Field(f1), [(id1, [])]), (Field(f2), [(id2, [])])])
  {
    var l2 := DefaultLabel(isLetter, f2);
    StillFresh(v1.labels, v1.rules, f1, l1, id1, f2);
    assert v1.labels + [(f2, l2)] == [(f1, l1), (f2, l2)];
    assert v1.rules + [(Field(f2), [(id2, [])])] == [(Field(f1), [(id1, [])]), (Field(f2), [(id2, [])])];
  }

  lemma StillFresh(labels: Assoc<string, string>, rules: Assoc<Key, Specs>, f1: string, l1: string, id1: string, f2: string)
    requires labels == [(f1, l1)] && rules == [(Field(f1), [(id1, [])])] && f1 != f2
    ensures f2 !in Keys(labels) && Field(f2) !in Keys(rules)
  {
    assert Keys(labels) == [f1];
    assert Keys(rules) == [Field(f1)];
  }

  /** A rule on a field nothing was registered for yet appends a label and a one-rule entry. */
  lemma RuleOnFreshField(v: Validation, isLetter: char -> bool, f: string, id: string, params: Params)
    requires f !in Keys(v.labels) && Field(f) !in Keys(v.rules)
    ensures Rule(v, isLetter, Field(f), id, params)
         == v.(labels := v.labels + [(f, DefaultLabel(isLetter, f))], rules := v.rules + [(Field(f), [(id, params)])])
  {
  }

  lemma EmailHasNoTemplate()
    ensures "email" !in Keys(DefaultMessages)
  {
  }
}

=== FILE: text.dfy ===
/**
 * Characters and strings: the ASCII classes the validators test, digit
 * stripping, decimal rendering of integers, the default field label, and the
 * placeholder substitution used for error messages.  Strings are sequences
 * of Unicode code points.
 */
module Text {

  predicate IsDigit(c: char) { '0' <= c <= '9' }

  predicate IsAsciiLetter(c: char) { 'a' <= c <= 'z' || 'A' <= c <= 'Z' }

  predicate IsHexDigit(c: char) { IsDigit(c) || 'a' <= c <= 'f' || 'A' <= c <= 'F' }

  predicate AllDigits(s: string) { forall i :: 0 <= i < |s| ==> IsDigit(s[i]) }

  function DigitValue(c: char): nat { if IsDigit(c) then c as int - '0' as int else 0 }

  function DigitChar(d: nat): (c: char)
    requires d < 10
    ensures IsDigit(c) && DigitValue(c) == d
  {
    ('0' as int + d) as char
  }

  /** ASCII `strtolower` on one character. */
  function LowerChar(c: char): char {
    if 'A' <= c <= 'Z' then (c as int + 32) as char else c
  }

  /** ASCII `strtolower`. */
  function Lower(s: string): string {
    seq(|s|, i requires 0 <= i < |s| => LowerChar(s[i]))
  }

  /** Lower-casing twice is lower-casing once. */
  lemma LowerIdempotent(s: string)
    ensures Lower(Lower(s)) == Lower(s)
  {
  }

  /** `preg_replace('/\D+/', '', s)`: the digits of `s`, in their order. */
  function StripNonDigits(s: string): (r: string)
    ensures AllDigits(r)
    ensures AllDigits(s) ==> r == s
  {
    if s == [] then []
    else (if IsDigit(s[0]) then [s[0]] else []) + StripNonDigits(s[1..])
  }

  /** Stripping keeps every digit, with its multiplicity, and nothing else. */
  lemma {:induction false} StripNonDigitsKeepsDigits(s: string)
    ensures forall c :: multiset(StripNonDigits(s))[c] == if IsDigit(c) then multiset(s)[c] else 0
  {
    if s != [] {
      assert s == [s[0]] + s[1..];
      StripNonDigitsKeepsDigits(s[1..]);
    }
  }

  /** Stripping works piecewise, so the digits keep their relative order. */
  lemma {:induction false} StripNonDigitsConcat(a: string, b: string)
    ensures StripNonDigits(a + b) == StripNonDigits(a) + StripNonDigits(b)
  {
    if a != [] {
      var h: string := if IsDigit(a[0]) then [a[0]] else [];
      assert (a + b)[0] == a[0];
      assert (a + b)[1..] == a[1..] + b;
      calc {
        StripNonDigits(a + b);
        h + StripNonDigits(a[1..] + b);
        { StripNonDigitsConcat(a[1..], b); }
        h + (StripNonDigits(a[1..]) + StripNonDigits(b));
        (h + StripNonDigits(a[1..])) + StripNonDigits(b);
        StripNonDigits(a) + StripNonDigits(b);
      }
    } else {
      assert a + b == b;
    }
  }

  /** Decimal digits of a natural number, most significant first, no leading zero. */
  function NatToString(n: nat): (r: string)
    ensures |r| >= 1 && AllDigits(r)
    ensures r[0] == '0' ==> n == 0
    decreases n
  {
    if n < 10 then [DigitChar(n)] else NatToString(n / 10) + [DigitChar(n % 10)]
  }

  /** The number a string of decimal digits denotes. */
  function DigitsValue(s: string): nat
    decreases |s|
  {
    if s == [] then 0 else DigitsValue(s[..|s| - 1]) * 10 + DigitValue(s[|s| - 1])
  }

  /** Reading back the rendering of `n` gives `n`. */
  lemma {:induction false} NatToStringRoundTrip(n: nat)
    ensures DigitsValue(NatToString(n)) == n
    decreases n
  {
    if n >= 10 {
      NatToStringRoundTrip(n / 10);
      var r := NatToString(n);
      assert r[..|r| - 1] == NatToString(n / 10);
    }
  }

  /** PHP's string conversion of an integer. */
  function IntToString(i: int): (r: string)
    ensures |r| >= 1
    ensures i < 0 <==> r[0] == '-'
    ensures i >= 0 ==> DigitsValue(r) == i
    ensures i < 0 ==> DigitsValue(r[1..]) == -i
    ensures var d := if i < 0 then r[1..] else r; |d| >= 1 && AllDigits(d) && (d[0] == '0' ==> i == 0)
  {
    if i < 0 then
      var r := "-" + NatToString(-i);
      NatToStringRoundTrip(-i);
      assert r[1..] == NatToString(-i);
      r
    else
      NatToStringRoundTrip(i);
      NatToString(i)
  }

  /** The leading run of characters outside `isLetter` removed. */
  function SkipNonLetters(isLetter: char -> bool, s: string): (r: string)
    ensures |r| <= |s| && r == s[|s| - |r|..]
    ensures r != [] ==> isLetter(r[0])
    ensures forall i :: 0 <= i < |s| - |r| ==> !isLetter(s[i])
  {
    if s == [] || isLetter(s[0]) then s else SkipNonLetters(isLetter, s[1..])
  }

  /** The characters of `s` that are letters, in order. */
  function Letters(isLetter: char -> bool, s: string): string {
    if s == [] then [] else (if isLetter(s[0]) then [s[0]] else []) + Letters(isLetter, s[1..])
  }

  lemma {:induction false} LettersOfSkipped(isLetter: char -> bool, s: string)
    ensures Letters(isLetter, SkipNonLetters(isLetter, s)) == Letters(isLetter, s)
  {
    if s != [] && !isLetter(s[0]) {
      LettersOfSkipped(isLetter, s[1..]);
    }
  }

  /**
   * `preg_replace('/[^\pL]+/u', ' ', s)`: every maximal run of non-letters
   * becomes one space.  `isLetter` stands for the Unicode letter class.
   */
  function DefaultLabel(isLetter: char -> bool, s: string): (r: string)
    ensures (r == []) <==> (s == [])
    ensures s != [] && isLetter(s[0]) ==> r[0] == s[0]
    ensures forall i :: 0 <= i < |r| ==> isLetter(r[i]) || r[i] == ' '
    ensures forall i :: 0 <= i < |r| - 1 && !isLetter(r[i]) ==> isLetter(r[i + 1])
    ensures !isLetter(' ') ==> Letters(isLetter, r) == Letters(isLetter, s)
    ensures |r| <= |s|
    decreases |s|
  {
    if s == [] then []
    else if isLetter(s[0]) then
      var rest := DefaultLabel(isLetter, s[1..]);
      var r := [s[0]] + rest;
      assert r[1..] == rest;
      r
    else
      var t := SkipNonLetters(isLetter, s[1..]);
      var rest := DefaultLabel(isLetter, t);
      var r := " " + rest;
      assert r[1..] == rest;
      LettersOfSkipped(isLetter, s[1..]);
      r
  }

  /** A name made of letters only is its own label. */
  lemma {:induction false} DefaultLabelLetters(isLetter: char -> bool, s: string)
    requires forall i :: 0 <= i < |s| ==> isLetter(s[i])
    ensures DefaultLabel(isLetter, s) == s
    decreases |s|
  {
    if s != [] {
      DefaultLabelLetters(isLetter, s[1..]);
    }
  }

  /** Skipping non-letters stops at the first letter, so text after it is kept as it is. */
  lemma {:induction false} SkipNonLettersConcat(isLetter: char -> bool, a: string, t: string)
    requires exists i :: 0 <= i < |a| && isLetter(a[i])
    ensures SkipNonLetters(isLetter, a + t) == SkipNonLetters(isLetter, a) + t
    decreases |a|
  {
    assert (a + t)[0] == a[0];
    if !isLetter(a[0]) {
      assert (a + t)[1..] == a[1..] + t;
      var i :| 0 <= i < |a| && isLetter(a[i]);
      assert isLetter(a[1..][i - 1]);
      SkipNonLettersConcat(isLetter, a[1..], t);
    }
  }

  /** A run of non-letters in front of a letter (or of nothing) is skipped entirely. */
  lemma {:induction false} SkipNonLettersRun(isLetter: char -> bool, sep: string, b: string)
    requires forall i :: 0 <= i < |sep| ==> !isLetter(sep[i])
    requires b == [] || isLetter(b[0])
    ensures SkipNonLetters(isLetter, sep + b) == b
    decreases |sep|
  {
    if sep == [] {
      assert sep + b == b;
    } else {
      assert (sep + b)[0] == sep[0];
      assert (sep + b)[1..] == sep[1..] + b;
      SkipNonLettersRun(isLetter, sep[1..], b);
    }
  }

  /** Skipping non-letters never removes a final letter. */
  lemma SkipNonLettersLast(isLetter: char -> bool, s: string)
    requires s != [] && isLetter(s[|s| - 1])
    ensures SkipNonLetters(isLetter, s) != []
    ensures SkipNonLetters(isLetter, s)[|SkipNonLetters(isLetter, s)| - 1] == s[|s| - 1]
  {
    var r := SkipNonLetters(isLetter, s);
    assert isLetter(s[|s| - 1]);
    assert r == s[|s| - |r|..];
  }

  /** Regrouping a concatenation, kept out of line so the proofs above stay small. */
  lemma ConcatAssoc<T>(p: seq<T>, q: seq<T>, r: seq<T>)
    ensures p + (q + r) == p + q + r
  {
  }

  /** A name ending in a letter is labelled on its own, whatever follows it. */
  lemma {:induction false} DefaultLabelConcat(isLetter: char -> bool, a: string, t: string)
    requires a == [] || isLetter(a[|a| - 1])
    ensures DefaultLabel(isLetter, a + t) == DefaultLabel(isLetter, a) + DefaultLabel(isLetter, t)
    decreases |a|
  {
    if a == [] {
      assert a + t == t;
    } else {
      var s, y := a + t, DefaultLabel(isLetter, t);
      assert s[0] == a[0] && s[1..] == a[1..] + t;
      if isLetter(a[0]) {
        var x := DefaultLabel(isLetter, a[1..]);
        assert DefaultLabel(isLetter, a[1..] + t) == x + y by {
          DefaultLabelConcat(isLetter, a[1..], t);
        }
        assert DefaultLabel(isLetter, s) == [a[0]] + (x + y);
        assert DefaultLabel(isLetter, a) == [a[0]] + x;
        ConcatAssoc([a[0]], x, y);
      } else {
        var a' := SkipNonLetters(isLetter, a[1..]);
        var x := DefaultLabel(isLetter, a');
        assert SkipNonLetters(isLetter, s[1..]) == a' + t by {
          assert isLetter(a[1..][|a| - 2]);
          SkipNonLettersConcat(isLetter, a[1..], t);
        }
        assert DefaultLabel(isLetter, a' + t) == x + y by {
          SkipNonLettersLast(isLetter, a[1..]);
          DefaultLabelConcat(isLetter, a', t);
        }
        assert DefaultLabel(isLetter, s) == " " + (x + y);
        assert DefaultLabel(isLetter, a) == " " + x;
        ConcatAssoc(" ", x, y);
      }
    }
  }

  /**
   * Where the spaces go: a run of non-letters between two pieces of the
   * name becomes exactly one space between their labels.
   */
  lemma DefaultLabelSplit(isLetter: char -> bool, a: string, sep: string, b: string)
    requires a == [] || isLetter(a[|a| - 1])
    requires sep != [] && forall i :: 0 <= i < |sep| ==> !isLetter(sep[i])
    requires b == [] || isLetter(b[0])
    ensures DefaultLabel(isLetter, a + sep + b) == DefaultLabel(isLetter, a) + " " + DefaultLabel(isLetter, b)
  {
    var t := sep + b;
    var x, y := DefaultLabel(isLetter, a), DefaultLabel(isLetter, b);
    assert DefaultLabel(isLetter, t) == " " + y by {
      DefaultLabelRun(isLetter, sep, b);
    }
    assert DefaultLabel(isLetter, a + t) == x + (" " + y) by {
      DefaultLabelConcat(isLetter, a, t);
    }
    ConcatAssoc(x, " ", y);
    ConcatAssoc(a, sep, b);
  }

  /** A leading run of non-letters becomes one space. */
  lemma DefaultLabelRun(isLetter: char -> bool, sep: string, b: string)
    requires sep != [] && forall i :: 0 <= i < |sep| ==> !isLetter(sep[i])
    requires b == [] || isLetter(b[0])
    ensures DefaultLabel(isLetter, sep + b) == " " + DefaultLabel(isLetter, b)
  {
    var s := sep + b;
    assert s[0] == sep[0];
    assert s[1..] == sep[1..] + b;
    SkipNonLettersRun(isLetter, sep[1..], b);
    assert SkipNonLetters(isLetter, s[1..]) == b;
  }

  /** Two words joined by non-letters (`first_name`, `a-b`) are labelled as the words with one space between. */
  lemma DefaultLabelWords(isLetter: char -> bool, a: string, sep: string, b: string)
    requires forall i :: 0 <= i < |a| ==> isLetter(a[i])
    requires forall i :: 0 <= i < |b| ==> isLetter(b[i])
    requires sep != [] && forall i :: 0 <= i < |sep| ==> !isLetter(sep[i])
    ensures DefaultLabel(isLetter, a + sep + b) == a + " " + b
  {
    assert DefaultLabel(isLetter, a) == a by {
      DefaultLabelLetters(isLetter, a);
    }
    assert DefaultLabel(isLetter, b) == b by {
      DefaultLabelLetters(isLetter, b);
    }
    DefaultLabelSplit(isLetter, a, sep, b);
  }

  predicate NoColon(s: string) { forall i :: 0 <= i < |s| ==> s[i] != ':' }

  /**
   * `strtr(template, [':field' => field, ':params' => params])`: scanning left
   * to right, each placeholder is replaced once and the inserted text is not
   * scanned again.
   */
  function Substitute(template: string, field: string, params: string): (r: string)
    ensures NoColon(template) ==> r == template
    decreases |template|
  {
    if template == [] then []
    else if template[0] != ':' then [template[0]] + Substitute(template[1..], field, params)
    else if ":params" <= template then params + Substitute(template[7..], field, params)
    else if ":field" <= template then field + Substitute(template[6..], field, params)
    else [':'] + Substitute(template[1..], field, params)
  }

  /** Text without a colon passes through unchanged, whatever follows it. */
  lemma {:induction false} SubstituteLiteral(a: string, t: string, field: string, params: string)
    requires NoColon(a)
    ensures Substitute(a + t, field, params) == a + Substitute(t, field, params)
  {
    if a != [] {
      var s := a + t;
      assert s[0] == a[0] != ':';
      assert s[1..] == a[1..] + t;
      calc {
        Substitute(s, field, params);
        [a[0]] + Substitute(a[1..] + t, field, params);
        { SubstituteLiteral(a[1..], t, field, params); }
        [a[0]] + (a[1..] + Substitute(t, field, params));
        { assert [a[0]] + a[1..] == a; }
        a + Substitute(t, field, params);
      }
    } else {
      assert a + t == t;
    }
  }

  lemma SubstituteField(t: string, field: string, params: string)
    ensures Substitute(":field" + t, field, params) == field + Substitute(t, field, params)
  {
    var s := ":field" + t;
    assert s[..6] == ":field";
    assert s[1] == 'f';
    assert s[6..] == t;
  }

  lemma SubstituteParams(t: string, field: string, params: string)
    ensures Substitute(":params" + t, field, params) == params + Substitute(t, field, params)
  {
    var s := ":params" + t;
    assert s[..7] == ":params";
    assert s[7..] == t;
  }

  /** `implode(sep, parts)`. */
  function Join(sep: string, parts: seq<string>): (r: string)
    ensures parts == [] ==> r == ""
    ensures |parts| == 1 ==> r == parts[0]
    decreases |parts|
  {
    if parts == [] then "" else if |parts| == 1 then parts[0] else parts[0] + sep + Join(sep, parts[1..])
  }

  /** Two parts are joined with exactly one separator between them: `implode(', ', [a, b])` is `a, b`. */
  lemma JoinPair(sep: string, a: string, b: string)
    ensures Join(sep, [a, b]) == a + sep + b
  {
    assert [a, b][1..] == [b];
  }

  /** Each further part adds one separator and the part at the end, so the separator stands between every two neighbours. */
  lemma {:induction false} JoinAppend(sep: string, parts: seq<string>, p: string)
    requires parts != []
    ensures Join(sep, parts + [p]) == Join(sep, parts) + sep + p
    decreases |parts|
  {
    var s := parts + [p];
    if |parts| == 1 {
      assert s == [parts[0], p];
      JoinPair(sep, parts[0], p);
    } else {
      assert s[1..] == parts[1..] + [p];
      JoinAppend(sep, parts[1..], p);
      var j := Join(sep, parts[1..]);
      assert Join(sep, s) == parts[0] + sep + (j + sep + p);
      assert Join(sep, parts) == parts[0] + sep + j;
    }
  }
}

=== FILE: values.dfy ===
/**
 * The dynamically typed values a field, a parameter or a rule result can
 * hold, and the few PHP conversions the validators rely on.
 */
module Values {
  import opened Wrappers
  import opened Text
  import opened Assoc

  datatype Value = Null | Str(s: string) | Int(i: int) | Bool(b: bool) | List(items: seq<Value>)

  /** The extra arguments registered with a filter or rule (the value itself excluded). */
  type Params = seq<Value>

  /** PHP's `empty()`: null, `''`, `'0'`, `0`, `false` and the empty array. */
  predicate IsEmpty(v: Value) {
    match v
    case Null => true
    case Str(s) => s == "" || s == "0"
    case Int(i) => i == 0
    case Bool(b) => !b
    case List(xs) => xs == []
  }

  /** The engine's "nothing here" test, `$v === NULL OR $v === ''`. */
  predicate Blank(v: Value) { v == Null || v == Str("") }

  /** PHP's `(string)` cast; an array becomes the word `Array`. */
  function ToStr(v: Value): string {
    match v
    case Null => ""
    case Str(s) => s
    case Int(i) => IntToString(i)
    case Bool(b) => if b then "1" else ""
    case List(_) => "Array"
  }

  /**
   * The string a string-taking PHP function (`strlen`, `preg_match`,
   * `preg_replace`) reads from a scalar argument.  Arrays change those
   * functions' behaviour altogether and are outside the model.
   */
  function AsText(v: Value): Option<string> {
    if v.List? then None else Some(ToStr(v))
  }

  /** `$v == NULL` under PHP's loose comparison. */
  predicate LooselyNull(v: Value) {
    match v
    case Null => true
    case Str(s) => s == ""
    case Int(i) => i == 0
    case Bool(b) => !b
    case List(xs) => xs == []
  }

  /** `$this[$field]` on the validated array: a missing field reads as null. */
  function Lookup(data: Assoc<string, Value>, field: string): (v: Value)
    ensures field !in Keys(data) ==> v == Null
    ensures field in Keys(data) ==> (field, v) in data
  {
    Get(data, field).GetOr(Null)
  }

  /** The `i`-th extra argument; an argument the caller did not pass reads as null. */
  function Param(ps: Params, i: nat): Value {
    if i < |ps| then ps[i] else Null
  }
}

=== FILE: wrappers.dfy ===
/** Optional values, for lookups that may miss. */
module Wrappers {

  datatype Option<+T> = None | Some(value: T) {

    /** The wrapped value, or `default` when there is none. */
    function GetOr(default: T): T {
      match this
      case Some(v) => v
      case None => default
    }
  }
}
